=== FILE: README.md ===
# Beyond the Stars — a Dafny model of the dashboard's table logic

Beyond the Stars is a Streamlit dashboard over a table of tourist-place reviews. Each
review has a region, city, place type, place name, star rating, sentiment label, VADER
`compound` score, LDA topic and text. Under the widgets and charts the dashboard
performs a small set of deterministic operations on that table, and this project
models them as pure functions over `seq<Review>`:

- **Filters** (`filters.dfy`)
  - The main page's three cascading sidebar multiselects: Region, then City, then Place
    Type. An empty multiselect does not restrict, and each level offers the values left
    by the levels above it.
  - The topic pages' single city / place-type choice, picked from sorted lists.
  - The comparison page's region with an optional place-type multiselect, and its
    "no data" outcome.
- **Aggregates** (`aggregates.dfy`)
  - `groupby(...)['Rating'].mean()`: the ten best and ten worst places, and the ranked
    means by place type and by (region, place type).
- **Attention** (`attention.dfy`)
  - The per-place negative-review count, inner-joined with the place's mean rating and
    ranked by count.
- **Crosstab** (`crosstab.dfy`)
  - The place-type × sentiment-label table with zero fill.
- **Mismatch** (`mismatch.dfy`)
  - The rating/sentiment mismatch flag and the first ten flagged reviews.
- **Topics** (`topics.dfy`)
  - The selectable topic numbers.
  - The ten heaviest vocabulary words of a topic, as keywords and as (word, weight)
    pairs.
  - The word-cloud map and the per-topic review counts.
- **Interpretation** (`interpret.dfy`)
  - `interpret_topic`: a header listing the keywords, then one canned sentence per
    concern whose trigger words are among them.

Shared building blocks:

- `collections.dfy`: distinctness, order-preserving subsequences, `unique()`, counting.
- `ordering.dfy`: a sorted permutation by a real key, top-k with its left-out
  guarantee, and Python string order with `sorted(...unique())`.
- `stats.dfy`: sum, mean, min, max.
- `reviews.dfy`: the record type, mask filters and group rows.

Ratings, means and weights are exact `real`s. The LDA weight matrix (`components_`)
and the vocabulary (`get_feature_names_out()`) are inputs, as is the table itself.

## Model

| member | source | states |
|---|---|---|
| Reviews.Where | app.py:133 | a mask filter keeps exactly the rows whose column value is selected, each as many times as the table holds it, as an order-preserving subsequence of the table |
| Filters.Restrict | app.py:35 | one cascade level keeps exactly the rows the selection admits, each as many times as the table holds it, in table order; an empty selection returns its input unchanged |
| Filters.Cascade | app.py:33-45 | `filtered` holds exactly the rows whose region, city and place type each pass their (possibly empty) selection, each as many times as the table holds it, in table order |
| Filters.SidebarMenu | app.py:34-42 | regions offered are those of the table; cities offered are exactly those of region-admitted rows; place types offered are exactly those of rows admitted by region and city; each level lists every value once, as `unique()` does |
| Filters.OfferedCityHasRows | app.py:38-39 | choosing any offered city, with the region choice kept, leaves at least one row |
| Filters.OfferedTypeHasRows | app.py:42-43 | choosing any offered place type, with the upper choices kept, leaves at least one row |
| Filters.CascadeIdempotent | app.py:35-43 | filtering the filtered table again with the same selections returns the same rows |
| Filters.FocusRows | pages/4-byond_words.py:28 | the topic page's rows are exactly those of the chosen city and place type, each as many times as the table holds it, in table order |
| Filters.FocusIsCascade | pages/4-LDA.py:36-38 | the one-city, one-type filter equals the sidebar cascade with no region restriction |
| Filters.CityChoices | pages/4-byond_words.py:23-24 | the city choices are strictly increasing in Python string order and are exactly the cities present |
| Filters.PlaceTypeChoices | pages/4-LDA.py:31-32 | the place-type choices are strictly increasing and are exactly the types present in the chosen city |
| Filters.OptionsIgnoreRowOrder | pages/4-byond_words.py:25-26 | two tables with the same rows in any order offer identical sorted option lists |
| Filters.OfferedPairHasRows | pages/4-byond_words.py:23-28 | any offered (city, place type) pair selects at least one review |
| Filters.RegionTypeOptions | pages/2_Compare_Sentiment.py:28-32 | the place types offered for a region are distinct and are exactly those occurring in that region |
| Filters.RegionRows | pages/2_Compare_Sentiment.py:33-35 | one comparison side holds exactly the region's rows, narrowed to the chosen place types when any are chosen, each as many times as the table holds it, in table order |
| Filters.RegionRowsIsCascade | pages/2_Compare_Sentiment.py:44-46 | a comparison side equals the sidebar cascade with that single region, no city and the chosen types |
| Filters.SentimentChart | pages/2_Compare_Sentiment.py:54-62 | the "no data" outcome happens exactly for an empty selection; otherwise each bar is the number of rows with that label; the bars never exceed the row count and equal it when every label is one of the three |
| Ordering.SortBy | app.py:220 | `sort_values` returns a permutation of its input that is ordered by the key |
| Ordering.TopBy | app.py:176 | `sort_values(...).head(k)` keeps min(k, n) elements drawn from the input, sorted; no element left out beats one kept |
| Ordering.SortedUnique | pages/4-byond_words.py:24 | `sorted(unique())` is strictly increasing and has exactly the input's values |
| Ordering.StrictlySortedUnique | pages/4-byond_words.py:24 | two strictly increasing lists with the same members are equal |
| Stats.MeanWithinRange | pages/5_more.py:16 | a mean lies between the smallest and largest value averaged |
| Aggregates.GroupMeans | app.py:175 | one row per key present in the table, keys distinct; each row's rating is the arithmetic mean of its group's ratings |
| Aggregates.GroupMeanInRange | pages/5_more.py:16 | every group mean lies between that group's minimum and maximum rating |
| Aggregates.GroupsPartitionRows | app.py:175 | the group sizes add up to the number of rows, so every row lands in exactly one group |
| Aggregates.RankedMeans | app.py:220 | the ranked table is a permutation of the group means, best first |
| Aggregates.TypeRatings | pages/5_more.py:16 | one row per distinct place type with that type's mean rating, best first; every type of the table appears |
| Aggregates.RegionTypeRatings | pages/5_more.py:50-55 | one row per distinct (region, place type) pair with that pair's mean rating, best first; every pair of the table appears |
| Aggregates.TopMeans | app.py:175-177 | min(k, groups) distinct groups in the requested order, each with its true mean; no group left out rates better than a group kept |
| Aggregates.TopPlaces | app.py:176 | at most ten places, non-increasing mean; no place left out has a higher mean than a place shown; all places appear when fewer than ten are shown |
| Aggregates.WorstPlaces | app.py:177 | at most ten places, non-decreasing mean; no place left out has a lower mean than a place shown; all places appear when fewer than ten are shown |
| Aggregates.TopCoversWhenShort | app.py:176-177 | a cut shorter than k keeps every group |
| Attention.NegativeCounts | app.py:198-199 | one row per place with a negative review, keys distinct; each count is positive and equals the place's number of negative reviews |
| Attention.Lookup | app.py:201 | a rating is found exactly when the key is in the mean table, and it comes from a row with that key |
| Attention.Merge | app.py:201 | the inner join keeps a count row exactly when the mean table has its key, and carries that row's count and the looked-up rating |
| Attention.MergeKeepsEveryNegativePlace | app.py:198-201 | every place with a negative review has a mean-rating row, so the join drops no place |
| Attention.AttentionTable | app.py:198-201 | one row per place with a negative review; the negative count is that place's count of negative reviews, and the rating is the mean over all of its reviews |
| Attention.RankByNegatives | app.py:202 | exactly min(10, n) rows, non-increasing in negative count, a sub-multiset of the table; a row left out has no more negatives than one shown |
| Attention.AttentionNeeded | app.py:198-202 | at most ten distinct places, each with at least one negative review, its true negative count and its mean over all reviews; non-increasing by count; no place left out has more negative reviews; all such places appear when fewer than ten are shown |
| Mismatch.MismatchFlag | app.py:208-209 | the flag is "Yes" exactly when compound < 0 and rating >= 4.0, and "No" otherwise |
| Mismatch.Flagged | app.py:210 | exactly the flagged rows, each as many times as the table holds it, in table order |
| Mismatch.MismatchedReviews | app.py:210-212 | min(10, flagged) flagged rows, in table order, forming the flagged rows of a prefix of the table; all flagged rows appear when fewer than ten are shown |
| Mismatch.FirstFlagged | app.py:210-212 | cutting the flagged rows after k equals flagging some prefix of the table |
| Crosstab.PairCount | app.py:241 | a cell counts the rows of that (type, label) pair, and is zero exactly when no such row exists |
| Crosstab.TypeSentiment | app.py:241 | rows are the present place types and columns the present labels, both strictly sorted; each cell is the pair's row count, zero exactly for an absent pair |
| Crosstab.CrosstabTotal | pages/5_more.py:41 | the cells add up to the number of rows |
| Topics.TopicNumbers | pages/4-LDA.py:57 | the selectable topics are exactly 0 .. n-1, increasing |
| Topics.Heaviest | pages/4-byond_words.py:48 | min(10, n) distinct indices, heaviest first, each with its own weight; no index left out is heavier than one kept |
| Topics.InVocabulary | pages/4-byond_words.py:49 | keeps exactly the indices below the vocabulary size |
| Topics.InVocabularyInOrder | pages/4-byond_words.py:49 | the kept indices stay in their original order |
| Topics.TopScored | pages/4-byond_words.py:48-49 | at most ten distinct in-vocabulary indices, heaviest first; no in-vocabulary index left out is heavier; exactly min(10, n) when the vocabulary covers the row; every in-vocabulary index among the ten heaviest of the row is kept |
| Topics.TopWeightedWords | pages/4-LDA.py:60-61 | at most ten (word, weight) pairs, each a vocabulary word with its own weight, non-increasing; no word left out weighs more; distinct words for a distinct vocabulary; exactly min(10, row length) pairs when the vocabulary covers the weight row |
| Topics.TopKeywords | pages/4-byond_words.py:48-49 | at most ten vocabulary words, exactly min(10, n) when the vocabulary covers the row |
| Topics.TopWeightedWordsKeepsHeaviest | pages/4-LDA.py:60-61 | every in-vocabulary index among the ten heaviest of the row appears as its word with its weight, also when the vocabulary is shorter than the row |
| Topics.SameWordsOnBothPages | pages/4-LDA.py:60-61 | given the same weight matrix and vocabulary, both pages' expressions pick the same words in the same order |
| Topics.WordWeights | pages/4-LDA.py:75 | the dict has exactly the listed words, and a word whose pair is its last gets that pair's weight |
| Topics.WordWeightsKeepsAll | pages/4-LDA.py:75 | with distinct words the dict gives every pair's weight |
| Topics.WordCloudData | pages/4-LDA.py:75 | the word-cloud map has exactly the shown words, each with its weight for a distinct vocabulary |
| Topics.TopicRows | pages/4-byond_words.py:86 | the reviews of a topic are exactly those assigned it, as many as the topic occurs in the column |
| Topics.TopicCounts | pages/4-byond_words.py:86 | one row per occurring topic in strictly increasing topic order, each count positive and equal to the topic's review count; counts add up to the row count |
| Interpretation.JoinLength | pages/4-byond_words.py:56 | the joined string's length is the keywords' total length plus one separator per neighbouring pair |
| Interpretation.JoinShowsEveryKeyword | pages/4-byond_words.py:56 | every keyword occurs whole inside the joined list |
| Interpretation.InterpretTopic | pages/4-byond_words.py:55-67 | the result is the header followed by the sentence of every raised concern, in the fixed order delay, food, service, improvements, each at most once |
| Interpretation.HeaderOnlyWhenNothingRaised | pages/4-byond_words.py:58-67 | the result is exactly the header if and only if no trigger word is a keyword |
| Interpretation.InterpretationNamesKeywords | pages/4-byond_words.py:56 | every keyword occurs in the interpretation |
| Interpretation.InterpretationRemarks | pages/4-byond_words.py:58-65 | the sentence of every raised concern occurs in the interpretation |

## Left out

- Streamlit widgets, page layout, HTML/CSS markdown, and matplotlib, seaborn and wordcloud
  rendering are presentation only. This includes the sentiment pie chart on the main page
  and the keyword and topic pie charts.
- CSV loading and `@st.cache_data` are I/O and caching; the table is a parameter.
- The joblib-loaded LDA, KMeans and vectorizer models, and VADER and nltk, are foreign
  artifacts. The topic weights, vocabulary, compound scores and topic labels are inputs.
- pages/5-Documention.py and introduction.py contain static text and images only.
- Floating-point means are not modelled: means are exact rationals over `real`.
- Tie order of `sort_values` and `argsort` is not modelled. pandas and numpy use an
  unstable quicksort by default, so contracts state a sorted permutation and a top-k cut
  and never fix an order among equal keys.
- Aggregates.GroupMeans: lists groups in first-appearance order, not in the key order
  `groupby` uses. This is visible only through the tie order of the sorts that follow,
  which is not modelled anyway.
- Attention.NegativeCounts: lists places in first-appearance order, not in the sorted key
  order that `groupby(...).size()` produces at app.py:198-199. This is visible only through
  the tie order of the negative-count sort that follows, which is not modelled.
- NaN group keys, which `groupby` drops, are not modelled: every field is a string.
- Mismatch.MismatchedReviews: the in-place `Mismatch` column write and the column
  projection of the shown rows are not modelled; whole reviews are returned.
- Attention.Merge: takes the first mean row with a matching key. pandas would emit one row
  per match, but the mean table it joins has distinct keys, so the two agree there.
- Topics.WordCloudData: states each word's weight only for a vocabulary without repeated
  words, which is what a fitted vectorizer produces. With repeats, the later pair wins,
  as `WordWeights` states.
- Topics.TopKeywords: states length and vocabulary membership only. Its order and weights
  follow from `Topics.SameWordsOnBothPages` and `Topics.TopWeightedWords`.
- The main page's sidebar filters three levels: Region, City and Place Type. The comment
  at app.py:29 also names Place Name, but the code never filters on it, and the model
  follows the code.
- The weighted attention score, built from a 4.5 rating constant and a 30% negative-rate
  threshold, does not appear in the modelled pages. Only the negative-count ranking of
  app.py:198-202 is modelled.
- The two topic pages load their vocabularies from different files (pages/4-byond_words.py:17
  and pages/4-LDA.py:16). The model takes one weight matrix and one vocabulary as inputs, so
  `Topics.SameWordsOnBothPages` says nothing about whether those two files agree.
- The static recommendation texts of the topic pages are not modelled.

=== FILE: aggregates.dfy ===
/** The `groupby(...)['Rating'].mean()` tables: per-group mean ratings, ranked in full
    (average rating by place type, by region and place type) or cut to the ten best
    and ten worst places. */
module Aggregates {
  import opened Collections
  import opened Ordering
  import opened Stats
  import opened Reviews

  /** One row of a `groupby(cols)['Rating'].mean().reset_index()` table. */
  datatype GroupMean = GroupMean(key: seq<string>, rating: real)

  function KeyOfMean(g: GroupMean): seq<string> { g.key }

  function RatingOf(g: GroupMean): real { g.rating }

  /** The mean rating of the rows whose key in `cols` is `k`. */
  function GroupRating(rows: seq<Review>, cols: seq<Column>, k: seq<string>): real
    requires |GroupRows(rows, cols, k)| > 0
  {
    Mean(KeyList(GroupRows(rows, cols, k), ReviewRating))
  }

  function MeansOf(rows: seq<Review>, cols: seq<Column>, ks: seq<seq<string>>): (r: seq<GroupMean>)
    requires forall k :: k in ks ==> |GroupRows(rows, cols, k)| > 0
    ensures KeyList(r, KeyOfMean) == ks
    ensures forall g :: g in r ==> |GroupRows(rows, cols, g.key)| > 0 && g.rating == GroupRating(rows, cols, g.key)
    decreases |ks|
  {
    if |ks| == 0 then []
    else [GroupMean(ks[0], GroupRating(rows, cols, ks[0]))] + MeansOf(rows, cols, ks[1..])
  }

  lemma KeyHasRows(rows: seq<Review>, cols: seq<Column>, k: seq<string>)
    requires k in KeyColumn(rows, cols)
    ensures |GroupRows(rows, cols, k)| > 0
  {
    var i :| 0 <= i < |rows| && KeyColumn(rows, cols)[i] == k;
    assert rows[i] in GroupRows(rows, cols, k);
  }

  /** `groupby(cols)['Rating'].mean().reset_index()`: one row per key present in the
      table, carrying the arithmetic mean of that group's ratings. */
  function GroupMeans(rows: seq<Review>, cols: seq<Column>): (r: seq<GroupMean>)
    ensures KeysDistinct(r, KeyOfMean)
    ensures forall x :: x in rows ==> KeyOf(x, cols) in KeyList(r, KeyOfMean)
    ensures forall g :: g in r ==> |GroupRows(rows, cols, g.key)| > 0 && g.rating == GroupRating(rows, cols, g.key)
  {
    var ks := Unique(KeyColumn(rows, cols));
    UniqueKeysHaveRows(rows, cols);
    var r := MeansOf(rows, cols, ks);
    DistinctKeys(r);
    RowKeysListed(rows, cols);
    r
  }

  lemma UniqueKeysHaveRows(rows: seq<Review>, cols: seq<Column>)
    ensures forall k :: k in Unique(KeyColumn(rows, cols)) ==> |GroupRows(rows, cols, k)| > 0
  {
    forall k | k in Unique(KeyColumn(rows, cols)) ensures |GroupRows(rows, cols, k)| > 0 {
      KeyHasRows(rows, cols, k);
    }
  }

  lemma DistinctKeys(r: seq<GroupMean>)
    requires Distinct(KeyList(r, KeyOfMean))
    ensures KeysDistinct(r, KeyOfMean)
  {
    assert forall i :: 0 <= i < |r| ==> KeyOfMean(r[i]) == KeyList(r, KeyOfMean)[i];
  }

  lemma RowKeysListed(rows: seq<Review>, cols: seq<Column>)
    ensures forall x :: x in rows ==> KeyOf(x, cols) in Unique(KeyColumn(rows, cols))
  {
    var column := KeyColumn(rows, cols);
    forall x | x in rows ensures KeyOf(x, cols) in column {
      var i :| 0 <= i < |rows| && rows[i] == x;
      assert column[i] == KeyOf(x, cols);
    }
  }

  /** Each group's mean lies between the group's lowest and highest rating. */
  lemma GroupMeanInRange(rows: seq<Review>, cols: seq<Column>, g: GroupMean)
    requires g in GroupMeans(rows, cols)
    ensures var xs := KeyList(GroupRows(rows, cols, g.key), ReviewRating);
      |xs| > 0 && Min(xs) <= g.rating <= Max(xs)
  {
    MeanWithinRange(KeyList(GroupRows(rows, cols, g.key), ReviewRating));
  }

  /** Total rows over a list of groups. */
  function GroupSizes(rows: seq<Review>, cols: seq<Column>, gs: seq<GroupMean>): nat
    decreases |gs|
  {
    if |gs| == 0 then 0 else |GroupRows(rows, cols, gs[0].key)| + GroupSizes(rows, cols, gs[1..])
  }

  lemma {:induction false} GroupSizesAsTally(rows: seq<Review>, cols: seq<Column>, gs: seq<GroupMean>)
    ensures GroupSizes(rows, cols, gs) == Tally(multiset(KeyColumn(rows, cols)), KeyList(gs, KeyOfMean))
    decreases |gs|
  {
    if |gs| > 0 {
      GroupSizesAsTally(rows, cols, gs[1..]);
      GroupCount(rows, cols, gs[0].key);
      assert KeyList(gs, KeyOfMean)[1..] == KeyList(gs[1..], KeyOfMean);
    }
  }

  lemma KeysOfDistinct(gs: seq<GroupMean>)
    requires KeysDistinct(gs, KeyOfMean)
    ensures Distinct(KeyList(gs, KeyOfMean))
  {
    assert forall i :: 0 <= i < |gs| ==> KeyList(gs, KeyOfMean)[i] == KeyOfMean(gs[i]);
  }

  /** The groups partition the table: re-selecting each group's rows by its key and
      adding up the sizes gives back every row exactly once. */
  lemma GroupsPartitionRows(rows: seq<Review>, cols: seq<Column>)
    ensures GroupSizes(rows, cols, GroupMeans(rows, cols)) == |rows|
  {
    var gs := GroupMeans(rows, cols);
    KeysOfDistinct(gs);
    forall k | k in KeyColumn(rows, cols) ensures k in KeyList(gs, KeyOfMean) {
      var i :| 0 <= i < |rows| && KeyColumn(rows, cols)[i] == k;
      assert rows[i] in rows;
    }
    CoveringGroups(rows, cols, gs);
  }

  /** Distinct keys that cover every row's key select every row exactly once. */
  lemma CoveringGroups(rows: seq<Review>, cols: seq<Column>, gs: seq<GroupMean>)
    requires Distinct(KeyList(gs, KeyOfMean))
    requires forall k :: k in KeyColumn(rows, cols) ==> k in KeyList(gs, KeyOfMean)
    ensures GroupSizes(rows, cols, gs) == |rows|
  {
    GroupSizesAsTally(rows, cols, gs);
    TallyBound(KeyColumn(rows, cols), KeyList(gs, KeyOfMean));
  }

  /** `groupby(cols)['Rating'].mean().sort_values(ascending=False)`. */
  function RankedMeans(rows: seq<Review>, cols: seq<Column>): (r: seq<GroupMean>)
    ensures multiset(r) == multiset(GroupMeans(rows, cols))
    ensures SortedBy(r, RatingOf, true)
    ensures KeysDistinct(r, KeyOfMean)
    ensures forall x :: x in rows ==> KeyOf(x, cols) in KeyList(r, KeyOfMean)
    ensures forall g :: g in r ==> |GroupRows(rows, cols, g.key)| > 0 && g.rating == GroupRating(rows, cols, g.key)
  {
    var gs := GroupMeans(rows, cols);
    var r := SortBy(gs, RatingOf, true);
    KeysDistinctSub(gs, r, KeyOfMean);
    PermutedKeys(gs, r);
    SubMembers(r, gs);
    r
  }

  /** Average rating by place type, best first. */
  function TypeRatings(rows: seq<Review>): (r: seq<GroupMean>)
    ensures SortedBy(r, RatingOf, true)
    ensures KeysDistinct(r, KeyOfMean)
    ensures forall x :: x in rows ==> [x.placeType] in KeyList(r, KeyOfMean)
    ensures forall g :: g in r ==>
      && (exists x :: x in rows && [x.placeType] == g.key)
      && |GroupRows(rows, [PlaceType], g.key)| > 0
      && g.rating == GroupRating(rows, [PlaceType], g.key)
  {
    TypeKeys(rows);
    RankedMeans(rows, [PlaceType])
  }

  /** Average rating by (region, place type), best first. */
  function RegionTypeRatings(rows: seq<Review>): (r: seq<GroupMean>)
    ensures SortedBy(r, RatingOf, true)
    ensures KeysDistinct(r, KeyOfMean)
    ensures forall x :: x in rows ==> [x.region, x.placeType] in KeyList(r, KeyOfMean)
    ensures forall g :: g in r ==>
      && (exists x :: x in rows && [x.region, x.placeType] == g.key)
      && |GroupRows(rows, [Region, PlaceType], g.key)| > 0
      && g.rating == GroupRating(rows, [Region, PlaceType], g.key)
  {
    RegionTypeKeys(rows);
    RankedMeans(rows, [Region, PlaceType])
  }

  /** The keys of the place-type ranking are the one-element tuples of the place types. */
  lemma TypeKeys(rows: seq<Review>)
    ensures var r := RankedMeans(rows, [PlaceType]);
      && (forall x :: x in rows ==> [x.placeType] in KeyList(r, KeyOfMean))
      && (forall g :: g in r ==> exists x :: x in rows && [x.placeType] == g.key)
  {
    var r := RankedMeans(rows, [PlaceType]);
    forall g | g in r ensures exists x :: x in rows && [x.placeType] == g.key {
      var grp := GroupRows(rows, [PlaceType], g.key);
      assert grp[0] in grp;
      KeyOfOne(grp[0], PlaceType);
      assert [grp[0].placeType] == g.key;
    }
    forall x | x in rows ensures [x.placeType] in KeyList(r, KeyOfMean) {
      KeyOfOne(x, PlaceType);
    }
  }

  /** The keys of the (region, place type) ranking are the pairs of the two columns' values. */
  lemma RegionTypeKeys(rows: seq<Review>)
    ensures var r := RankedMeans(rows, [Region, PlaceType]);
      && (forall x :: x in rows ==> [x.region, x.placeType] in KeyList(r, KeyOfMean))
      && (forall g :: g in r ==> exists x :: x in rows && [x.region, x.placeType] == g.key)
  {
    var r := RankedMeans(rows, [Region, PlaceType]);
    forall g | g in r ensures exists x :: x in rows && [x.region, x.placeType] == g.key {
      var grp := GroupRows(rows, [Region, PlaceType], g.key);
      assert grp[0] in grp;
      KeyOfTwo(grp[0], Region, PlaceType);
      assert [grp[0].region, grp[0].placeType] == g.key;
    }
    forall x | x in rows ensures [x.region, x.placeType] in KeyList(r, KeyOfMean) {
      KeyOfTwo(x, Region, PlaceType);
    }
  }

  /** `groupby(cols)['Rating'].mean().sort_values(...).head(k)`: the `k` best groups (the
      `k` worst when ascending); a group left out never beats a group kept. */
  function TopMeans(rows: seq<Review>, cols: seq<Column>, k: nat, desc: bool): (r: seq<GroupMean>)
    ensures |r| == if k < |GroupMeans(rows, cols)| then k else |GroupMeans(rows, cols)|
    ensures SortedBy(r, RatingOf, desc)
    ensures KeysDistinct(r, KeyOfMean)
    ensures forall g :: g in r ==> |GroupRows(rows, cols, g.key)| > 0 && g.rating == GroupRating(rows, cols, g.key)
    ensures forall x, g :: x in rows && g in r && KeyOf(x, cols) !in KeyList(r, KeyOfMean) ==>
      InOrder(g.rating, GroupRating(rows, cols, KeyOf(x, cols)), desc)
  {
    var gs := GroupMeans(rows, cols);
    var r := TopBy(gs, k, RatingOf, desc);
    KeysDistinctSub(gs, r, KeyOfMean);
    SubMembers(r, gs);
    TopMeansLeftOut(rows, cols, gs, r, desc);
    r
  }

  lemma TopMeansLeftOut(rows: seq<Review>, cols: seq<Column>, gs: seq<GroupMean>, r: seq<GroupMean>, desc: bool)
    requires forall x :: x in rows ==> KeyOf(x, cols) in KeyList(gs, KeyOfMean)
    requires forall g :: g in gs ==> |GroupRows(rows, cols, g.key)| > 0 && g.rating == GroupRating(rows, cols, g.key)
    requires forall x, y :: x in r && y in multiset(gs) - multiset(r) ==> InOrder(RatingOf(x), RatingOf(y), desc)
    ensures forall x, g :: x in rows && g in r && KeyOf(x, cols) !in KeyList(r, KeyOfMean) ==>
      InOrder(g.rating, GroupRating(rows, cols, KeyOf(x, cols)), desc)
  {
    forall x, g | x in rows && g in r && KeyOf(x, cols) !in KeyList(r, KeyOfMean)
      ensures InOrder(g.rating, GroupRating(rows, cols, KeyOf(x, cols)), desc)
    {
      var i :| 0 <= i < |gs| && KeyList(gs, KeyOfMean)[i] == KeyOf(x, cols);
      LeftOutNoBetter(gs, r, desc, gs[i], g);
    }
  }

  lemma LeftOutNoBetter(gs: seq<GroupMean>, r: seq<GroupMean>, desc: bool, h: GroupMean, g: GroupMean)
    requires forall x, y :: x in r && y in multiset(gs) - multiset(r) ==> InOrder(RatingOf(x), RatingOf(y), desc)
    requires h in gs && h.key !in KeyList(r, KeyOfMean) && g in r
    ensures InOrder(g.rating, h.rating, desc)
  {
    assert h in multiset(gs) - multiset(r);
    assert InOrder(RatingOf(g), RatingOf(h), desc);
  }

  /** `top_places`: at most ten places, best mean first; no place left out rates higher
      than a place shown. */
  function TopPlaces(rows: seq<Review>): (r: seq<GroupMean>)
    ensures |r| <= 10
    ensures forall i, j :: 0 <= i < j < |r| ==> r[i].rating >= r[j].rating
    ensures KeysDistinct(r, KeyOfMean)
    ensures forall g :: g in r ==> |GroupRows(rows, PlaceKey, g.key)| > 0 && g.rating == GroupRating(rows, PlaceKey, g.key)
    ensures forall x, g :: x in rows && g in r && KeyOf(x, PlaceKey) !in KeyList(r, KeyOfMean) ==>
      GroupRating(rows, PlaceKey, KeyOf(x, PlaceKey)) <= g.rating
    ensures |r| < 10 ==> forall x :: x in rows ==> KeyOf(x, PlaceKey) in KeyList(r, KeyOfMean)
  {
    TopCoversWhenShort(rows, PlaceKey, 10, true);
    TopMeans(rows, PlaceKey, 10, true)
  }

  /** `worst_places`: at most ten places, worst mean first; no place left out rates lower
      than a place shown. */
  function WorstPlaces(rows: seq<Review>): (r: seq<GroupMean>)
    ensures |r| <= 10
    ensures forall i, j :: 0 <= i < j < |r| ==> r[i].rating <= r[j].rating
    ensures KeysDistinct(r, KeyOfMean)
    ensures forall g :: g in r ==> |GroupRows(rows, PlaceKey, g.key)| > 0 && g.rating == GroupRating(rows, PlaceKey, g.key)
    ensures forall x, g :: x in rows && g in r && KeyOf(x, PlaceKey) !in KeyList(r, KeyOfMean) ==>
      g.rating <= GroupRating(rows, PlaceKey, KeyOf(x, PlaceKey))
    ensures |r| < 10 ==> forall x :: x in rows ==> KeyOf(x, PlaceKey) in KeyList(r, KeyOfMean)
  {
    TopCoversWhenShort(rows, PlaceKey, 10, false);
    TopMeans(rows, PlaceKey, 10, false)
  }

  /** When fewer than `k` groups exist, the cut keeps all of them. */
  lemma TopCoversWhenShort(rows: seq<Review>, cols: seq<Column>, k: nat, desc: bool)
    ensures |TopMeans(rows, cols, k, desc)| < k ==>
      forall x :: x in rows ==> KeyOf(x, cols) in KeyList(TopMeans(rows, cols, k, desc), KeyOfMean)
  {
    var gs := GroupMeans(rows, cols);
    var r := TopMeans(rows, cols, k, desc);
    if |r| < k {
      assert multiset(r) <= multiset(gs);
      SubMultisetSameSize(multiset(r), multiset(gs));
      PermutedKeys(gs, r);
    }
  }

  /** Reordering a table keeps its set of keys. */
  lemma PermutedKeys(gs: seq<GroupMean>, r: seq<GroupMean>)
    requires multiset(r) == multiset(gs)
    ensures forall k :: k in KeyList(gs, KeyOfMean) ==> k in KeyList(r, KeyOfMean)
  {
    forall k | k in KeyList(gs, KeyOfMean) ensures k in KeyList(r, KeyOfMean) {
      var i :| 0 <= i < |gs| && KeyList(gs, KeyOfMean)[i] == k;
      assert gs[i] in multiset(r);
      var j :| 0 <= j < |r| && r[j] == gs[i];
      assert KeyList(r, KeyOfMean)[j] == k;
    }
  }
}

=== FILE: attention.dfy ===
/** "Cities That Might Need Ministry Attention": per place, the number of negative
    reviews, inner-joined with the place's mean rating over all of its reviews, ranked
    by the negative count and cut to ten rows. */
module Attention {
  import opened Collections
  import opened Ordering
  import opened Reviews
  import opened Aggregates

  /** A row of the negative-review count table (`.size().reset_index(name='Negative Reviews')`). */
  datatype NegativeCount = NegativeCount(key: seq<string>, count: nat)

  /** A row of the joined attention table. */
  datatype AttentionRow = AttentionRow(key: seq<string>, negatives: nat, rating: real)

  function CountKey(c: NegativeCount): seq<string> { c.key }

  function RowKey(a: AttentionRow): seq<string> { a.key }

  function NegativesOf(a: AttentionRow): real { a.negatives as real }

  /** `filtered[filtered['Sentiment Label'] == 'negative']`. */
  function NegativeRows(rows: seq<Review>): (r: seq<Review>)
    ensures forall x :: x in r <==> x in rows && x.sentiment == NegativeLabel
  {
    Where(rows, Sentiment, [NegativeLabel])
  }

  function NegativeTally(neg: seq<Review>, ks: seq<seq<string>>): (r: seq<NegativeCount>)
    ensures KeyList(r, CountKey) == ks
    ensures forall c :: c in r ==> c.count == |GroupRows(neg, PlaceKey, c.key)|
    decreases |ks|
  {
    if |ks| == 0 then []
    else [NegativeCount(ks[0], |GroupRows(neg, PlaceKey, ks[0])|)] + NegativeTally(neg, ks[1..])
  }

  /** `neg_sentiment_counts`: one row per place with a negative review, carrying the number
      of its negative reviews. */
  function NegativeCounts(rows: seq<Review>): (r: seq<NegativeCount>)
    ensures KeysDistinct(r, CountKey)
    ensures forall c :: c in r ==> c.count > 0 && c.count == |GroupRows(NegativeRows(rows), PlaceKey, c.key)|
    ensures forall x :: x in NegativeRows(rows) ==> KeyOf(x, PlaceKey) in KeyList(r, CountKey)
  {
    var neg := NegativeRows(rows);
    var column := KeyColumn(neg, PlaceKey);
    var ks := Unique(column);
    var r := NegativeTally(neg, ks);
    assert forall i :: 0 <= i < |r| ==> r[i].key == ks[i];
    forall c | c in r ensures c.count > 0 {
      KeyHasRows(neg, PlaceKey, c.key);
    }
    forall x | x in neg ensures KeyOf(x, PlaceKey) in KeyList(r, CountKey) {
      var i :| 0 <= i < |neg| && neg[i] == x;
      assert column[i] == KeyOf(x, PlaceKey);
    }
    r
  }

  /** The mean of the first table row whose key is `k`, if any. */
  function Lookup(means: seq<GroupMean>, k: seq<string>): (r: Option<real>)
    ensures r.Some? ==> exists g :: g in means && g.key == k && g.rating == r.value
    ensures r.None? <==> k !in KeyList(means, KeyOfMean)
    decreases |means|
  {
    if |means| == 0 then None
    else if means[0].key == k then Some(means[0].rating)
    else
      assert KeyList(means, KeyOfMean) == [means[0].key] + KeyList(means[1..], KeyOfMean);
      Lookup(means[1..], k)
  }

  /** `pd.merge(counts, means, on=PlaceKey)` (an inner join): a count row survives exactly
      when a mean row has its key, and takes that row's rating. */
  function Merge(counts: seq<NegativeCount>, means: seq<GroupMean>): (r: seq<AttentionRow>)
    ensures forall a :: a in r ==> exists c :: c in counts && c.key == a.key && c.count == a.negatives
    ensures forall a :: a in r ==> Lookup(means, a.key) == Some(a.rating)
    ensures forall c :: c in counts && c.key in KeyList(means, KeyOfMean) ==> c.key in KeyList(r, RowKey)
    ensures forall k :: k in KeyList(r, RowKey) ==> k in KeyList(counts, CountKey)
    ensures KeysDistinct(counts, CountKey) ==> KeysDistinct(r, RowKey)
    decreases |counts|
  {
    if |counts| == 0 then []
    else
      var rest := Merge(counts[1..], means);
      match Lookup(means, counts[0].key)
      case None =>
        MergeSkip(counts, means, rest);
        rest
      case Some(m) =>
        var row := AttentionRow(counts[0].key, counts[0].count, m);
        MergeKeep(counts, means, rest, row);
        [row] + rest
  }

  /** The properties `Merge` promises, for the result `r`. */
  predicate Joined(r: seq<AttentionRow>, counts: seq<NegativeCount>, means: seq<GroupMean>) {
    && (forall a :: a in r ==> exists c :: c in counts && c.key == a.key && c.count == a.negatives)
    && (forall a :: a in r ==> Lookup(means, a.key) == Some(a.rating))
    && (forall c :: c in counts && c.key in KeyList(means, KeyOfMean) ==> c.key in KeyList(r, RowKey))
    && (forall k :: k in KeyList(r, RowKey) ==> k in KeyList(counts, CountKey))
    && (KeysDistinct(counts, CountKey) ==> KeysDistinct(r, RowKey))
  }

  lemma MergeSkip(counts: seq<NegativeCount>, means: seq<GroupMean>, rest: seq<AttentionRow>)
    requires |counts| > 0 && Lookup(means, counts[0].key).None?
    requires Joined(rest, counts[1..], means)
    ensures Joined(rest, counts, means)
  {
    assert forall c :: c in counts[1..] ==> c in counts;
    assert forall k :: k in KeyList(rest, RowKey) ==> k in KeyList(counts, CountKey) by {
      assert KeyList(counts, CountKey) == [counts[0].key] + KeyList(counts[1..], CountKey);
    }
    assert forall c :: c in counts ==> c == counts[0] || c in counts[1..];
    if KeysDistinct(counts, CountKey) {
      TailKeysDistinct(counts);
    }
  }

  lemma TailKeysDistinct(counts: seq<NegativeCount>)
    requires |counts| > 0 && KeysDistinct(counts, CountKey)
    ensures KeysDistinct(counts[1..], CountKey)
  {
    assert counts == [counts[0]] + counts[1..];
    KeysDistinctSub(counts, counts[1..], CountKey);
  }

  lemma MergeKeep(counts: seq<NegativeCount>, means: seq<GroupMean>, rest: seq<AttentionRow>, row: AttentionRow)
    requires |counts| > 0 && Lookup(means, counts[0].key) == Some(row.rating)
    requires row.key == counts[0].key && row.negatives == counts[0].count
    requires Joined(rest, counts[1..], means)
    ensures Joined([row] + rest, counts, means)
  {
    var r := [row] + rest;
    assert KeyList(r, RowKey) == [row.key] + KeyList(rest, RowKey);
    assert forall a :: a in r ==> exists c :: c in counts && c.key == a.key && c.count == a.negatives by {
      assert counts[0] in counts;
      assert forall c :: c in counts[1..] ==> c in counts;
    }
    assert forall c :: c in counts && c.key in KeyList(means, KeyOfMean) ==> c.key in KeyList(r, RowKey) by {
      assert forall c :: c in counts ==> c == counts[0] || c in counts[1..];
    }
    assert forall k :: k in KeyList(r, RowKey) ==> k in KeyList(counts, CountKey) by {
      assert KeyList(counts, CountKey) == [counts[0].key] + KeyList(counts[1..], CountKey);
    }
    if KeysDistinct(counts, CountKey) {
      TailKeysDistinct(counts);
      MergeHeadFresh(counts, rest, row);
    }
  }

  lemma MergeHeadFresh(counts: seq<NegativeCount>, rest: seq<AttentionRow>, h: AttentionRow)
    requires |counts| > 0 && h.key == counts[0].key
    requires KeysDistinct(counts, CountKey)
    requires forall k :: k in KeyList(rest, RowKey) ==> k in KeyList(counts[1..], CountKey)
    requires KeysDistinct(rest, RowKey)
    ensures KeysDistinct([h] + rest, RowKey)
  {
    {
      forall i | 0 <= i < |rest| ensures rest[i].key != counts[0].key {
        assert KeyList(rest, RowKey)[i] == rest[i].key;
        assert rest[i].key in KeyList(rest, RowKey);
        assert rest[i].key in KeyList(counts[1..], CountKey);
        var j :| 0 <= j < |counts[1..]| && KeyList(counts[1..], CountKey)[j] == rest[i].key;
        assert counts[j + 1].key == rest[i].key;
      }
      forall i, j | 0 <= i < j < |[h] + rest| ensures RowKey(([h] + rest)[i]) != RowKey(([h] + rest)[j]) {
        if i == 0 {
          assert ([h] + rest)[j] == rest[j - 1];
          assert KeyList(rest, RowKey)[j - 1] == rest[j - 1].key;
        }
      }
    }
  }

  /** Every place with a negative review also has a mean-rating row, so the join drops
      no place. */
  lemma MergeKeepsEveryNegativePlace(rows: seq<Review>)
    ensures var means := GroupMeans(rows, PlaceKey);
      forall c :: c in NegativeCounts(rows) ==> c.key in KeyList(means, KeyOfMean)
  {
    var means := GroupMeans(rows, PlaceKey);
    forall c | c in NegativeCounts(rows) ensures c.key in KeyList(means, KeyOfMean) {
      var neg := NegativeRows(rows);
      var grp := GroupRows(neg, PlaceKey, c.key);
      assert grp[0] in grp;
      var x := grp[0];
      assert x in rows;
    }
  }

  /** `attention_df`: the negative counts joined with the mean ratings, one row per place
      that has a negative review. */
  function AttentionTable(rows: seq<Review>): (r: seq<AttentionRow>)
    ensures KeysDistinct(r, RowKey)
    ensures forall a :: a in r ==>
      && a.negatives > 0
      && a.negatives == |GroupRows(NegativeRows(rows), PlaceKey, a.key)|
      && |GroupRows(rows, PlaceKey, a.key)| > 0
      && a.rating == GroupRating(rows, PlaceKey, a.key)
    ensures forall x :: x in NegativeRows(rows) ==> KeyOf(x, PlaceKey) in KeyList(r, RowKey)
  {
    AttentionFacts(rows);
    Merge(NegativeCounts(rows), GroupMeans(rows, PlaceKey))
  }

  lemma AttentionFacts(rows: seq<Review>)
    ensures var r := Merge(NegativeCounts(rows), GroupMeans(rows, PlaceKey));
      && KeysDistinct(r, RowKey)
      && (forall a :: a in r ==>
        && a.negatives > 0
        && a.negatives == |GroupRows(NegativeRows(rows), PlaceKey, a.key)|
        && |GroupRows(rows, PlaceKey, a.key)| > 0
        && a.rating == GroupRating(rows, PlaceKey, a.key))
      && (forall x :: x in NegativeRows(rows) ==> KeyOf(x, PlaceKey) in KeyList(r, RowKey))
  {
    var counts := NegativeCounts(rows);
    var means := GroupMeans(rows, PlaceKey);
    var r := Merge(counts, means);
    forall a | a in r ensures
      && a.negatives > 0
      && a.negatives == |GroupRows(NegativeRows(rows), PlaceKey, a.key)|
      && |GroupRows(rows, PlaceKey, a.key)| > 0
      && a.rating == GroupRating(rows, PlaceKey, a.key)
    {
      var c :| c in counts && c.key == a.key && c.count == a.negatives;
      var g :| g in means && g.key == a.key && g.rating == a.rating;
    }
    MergeKeepsEveryNegativePlace(rows);
    forall x | x in NegativeRows(rows) ensures KeyOf(x, PlaceKey) in KeyList(r, RowKey) {
      var k := KeyOf(x, PlaceKey);
      var i :| 0 <= i < |counts| && KeyList(counts, CountKey)[i] == k;
      assert counts[i] in counts;
    }
  }

  /** `sort_values(by='Negative Reviews', ascending=False).head(10)` on a joined table. */
  function RankByNegatives(t: seq<AttentionRow>): (r: seq<AttentionRow>)
    ensures |r| == if 10 < |t| then 10 else |t|
    ensures forall i, j :: 0 <= i < j < |r| ==> r[i].negatives >= r[j].negatives
    ensures multiset(r) <= multiset(t)
    ensures forall a :: a in r ==> a in t
    ensures KeysDistinct(t, RowKey) ==> KeysDistinct(r, RowKey)
    ensures forall b, a :: b in t && b.key !in KeyList(r, RowKey) && a in r ==> b.negatives <= a.negatives
    ensures |r| < 10 ==> forall b :: b in t ==> b.key in KeyList(r, RowKey)
  {
    RankFacts(t);
    TopBy(t, 10, NegativesOf, true)
  }

  lemma RankFacts(t: seq<AttentionRow>)
    ensures var r := TopBy(t, 10, NegativesOf, true);
      && (forall i, j :: 0 <= i < j < |r| ==> r[i].negatives >= r[j].negatives)
      && (forall a :: a in r ==> a in t)
      && (KeysDistinct(t, RowKey) ==> KeysDistinct(r, RowKey))
      && (forall b, a :: b in t && b.key !in KeyList(r, RowKey) && a in r ==> b.negatives <= a.negatives)
      && (|r| < 10 ==> forall b :: b in t ==> b.key in KeyList(r, RowKey))
  {
    var r := TopBy(t, 10, NegativesOf, true);
    if KeysDistinct(t, RowKey) {
      KeysDistinctSub(t, r, RowKey);
    }
    MostNegativeFirst(r);
    SubMembers(r, t);
    RankLeftOut(t, r);
    AttentionCoversWhenShort(t, r);
  }

  lemma RankLeftOut(t: seq<AttentionRow>, r: seq<AttentionRow>)
    requires forall x, y :: x in r && y in multiset(t) - multiset(r) ==> InOrder(NegativesOf(x), NegativesOf(y), true)
    ensures forall b, a :: b in t && b.key !in KeyList(r, RowKey) && a in r ==> b.negatives <= a.negatives
  {
    forall b, a | b in t && b.key !in KeyList(r, RowKey) && a in r ensures b.negatives <= a.negatives {
      LeftOutNotMore(t, r, b, a);
    }
  }

  /** `attention_df.sort_values(by='Negative Reviews', ascending=False).head(10)`. */
  function AttentionNeeded(rows: seq<Review>): (r: seq<AttentionRow>)
    ensures |r| <= 10
    ensures forall i, j :: 0 <= i < j < |r| ==> r[i].negatives >= r[j].negatives
    ensures KeysDistinct(r, RowKey)
    ensures forall a :: a in r ==>
      && a.negatives > 0
      && a.negatives == |GroupRows(NegativeRows(rows), PlaceKey, a.key)|
      && |GroupRows(rows, PlaceKey, a.key)| > 0
      && a.rating == GroupRating(rows, PlaceKey, a.key)
    ensures forall x, a :: x in NegativeRows(rows) && a in r && KeyOf(x, PlaceKey) !in KeyList(r, RowKey) ==>
      |GroupRows(NegativeRows(rows), PlaceKey, KeyOf(x, PlaceKey))| <= a.negatives
    ensures |r| < 10 ==> forall x :: x in NegativeRows(rows) ==> KeyOf(x, PlaceKey) in KeyList(r, RowKey)
  {
    var table := AttentionTable(rows);
    var r := RankByNegatives(table);
    LeftOutAttention(rows, table, r);
    ShortAttentionCovers(rows, table, r);
    r
  }

  lemma MostNegativeFirst(r: seq<AttentionRow>)
    requires SortedBy(r, NegativesOf, true)
    ensures forall i, j :: 0 <= i < j < |r| ==> r[i].negatives >= r[j].negatives
  {
    forall i, j | 0 <= i < j < |r| ensures r[i].negatives >= r[j].negatives {
      assert InOrder(NegativesOf(r[i]), NegativesOf(r[j]), true);
    }
  }

  /** A place left out of the ranking has no more negative reviews than any place shown. */
  lemma LeftOutAttention(rows: seq<Review>, table: seq<AttentionRow>, r: seq<AttentionRow>)
    requires forall a :: a in table ==> a.negatives == |GroupRows(NegativeRows(rows), PlaceKey, a.key)|
    requires forall x :: x in NegativeRows(rows) ==> KeyOf(x, PlaceKey) in KeyList(table, RowKey)
    requires forall b, a :: b in table && b.key !in KeyList(r, RowKey) && a in r ==> b.negatives <= a.negatives
    ensures forall x, a :: x in NegativeRows(rows) && a in r && KeyOf(x, PlaceKey) !in KeyList(r, RowKey) ==>
      |GroupRows(NegativeRows(rows), PlaceKey, KeyOf(x, PlaceKey))| <= a.negatives
  {
    forall x, a | x in NegativeRows(rows) && a in r && KeyOf(x, PlaceKey) !in KeyList(r, RowKey)
      ensures |GroupRows(NegativeRows(rows), PlaceKey, KeyOf(x, PlaceKey))| <= a.negatives
    {
      var j :| 0 <= j < |table| && KeyList(table, RowKey)[j] == KeyOf(x, PlaceKey);
      assert table[j] in table;
    }
  }

  lemma ShortAttentionCovers(rows: seq<Review>, table: seq<AttentionRow>, r: seq<AttentionRow>)
    requires forall x :: x in NegativeRows(rows) ==> KeyOf(x, PlaceKey) in KeyList(table, RowKey)
    requires |r| < 10 ==> forall b :: b in table ==> b.key in KeyList(r, RowKey)
    ensures |r| < 10 ==> forall x :: x in NegativeRows(rows) ==> KeyOf(x, PlaceKey) in KeyList(r, RowKey)
  {
    forall x | |r| < 10 && x in NegativeRows(rows) ensures KeyOf(x, PlaceKey) in KeyList(r, RowKey) {
      var j :| 0 <= j < |table| && KeyList(table, RowKey)[j] == KeyOf(x, PlaceKey);
      assert table[j] in table;
    }
  }

  lemma LeftOutNotMore(merged: seq<AttentionRow>, r: seq<AttentionRow>, b: AttentionRow, a: AttentionRow)
    requires forall x, y :: x in r && y in multiset(merged) - multiset(r) ==> InOrder(NegativesOf(x), NegativesOf(y), true)
    requires b in merged && b.key !in KeyList(r, RowKey) && a in r
    ensures b.negatives <= a.negatives
  {
    assert b !in r by {
      forall j | 0 <= j < |r| ensures r[j] != b {
        assert KeyList(r, RowKey)[j] == r[j].key;
      }
    }
    assert b in multiset(merged) - multiset(r);
    assert InOrder(NegativesOf(a), NegativesOf(b), true);
  }

  lemma AttentionCoversWhenShort(merged: seq<AttentionRow>, r: seq<AttentionRow>)
    requires multiset(r) <= multiset(merged)
    requires |r| == if 10 < |merged| then 10 else |merged|
    ensures |r| < 10 ==> forall b :: b in merged ==> b.key in KeyList(r, RowKey)
  {
    if |r| < 10 {
      SubMultisetSameSize(multiset(r), multiset(merged));
      forall b | b in merged ensures b.key in KeyList(r, RowKey) {
        assert b in multiset(r);
        var j :| 0 <= j < |r| && r[j] == b;
        assert KeyList(r, RowKey)[j] == b.key;
      }
    }
  }
}

=== FILE: collections.dfy ===
/** Generic facts about sequences that every stage of the dashboard relies on:
    distinctness, order-preserving subsequences, first-appearance de-duplication
    (what a column's `unique()` returns), prefixes (`head(n)`) and tallies of
    occurrences. */
module Collections {

  datatype Option<T> = None | Some(value: T)

  /** No element occurs twice. */
  predicate Distinct<T(==)>(s: seq<T>) {
    forall i, j :: 0 <= i < j < |s| ==> s[i] != s[j]
  }

  /** Three different values, listed, are distinct. */
  lemma DistinctThree<T>(a: T, b: T, c: T)
    requires a != b && a != c && b != c
    ensures Distinct([a, b, c])
  {
  }

  /** No two elements share a key. */
  predicate KeysDistinct<T, K(==)>(s: seq<T>, key: T -> K) {
    forall i, j :: 0 <= i < j < |s| ==> key(s[i]) != key(s[j])
  }

  /** The key of every element, in order. */
  function KeyList<T, K>(s: seq<T>, key: T -> K): (ks: seq<K>)
    ensures |ks| == |s|
    ensures forall i :: 0 <= i < |s| ==> ks[i] == key(s[i])
    decreases |s|
  {
    if |s| == 0 then [] else [key(s[0])] + KeyList(s[1..], key)
  }

  /** `a` is obtained from `b` by deleting elements, keeping the order of the rest. */
  predicate Subseq<T(==)>(a: seq<T>, b: seq<T>)
    decreases |b|
  {
    |a| == 0 || (|b| > 0 && ((a[0] == b[0] && Subseq(a[1..], b[1..])) || Subseq(a, b[1..])))
  }

  lemma {:induction false} SubseqMultiset<T>(a: seq<T>, b: seq<T>)
    requires Subseq(a, b)
    ensures multiset(a) <= multiset(b)
    decreases |b|
  {
    if |a| == 0 {
      return;
    }
    assert b == [b[0]] + b[1..];
    if a[0] == b[0] && Subseq(a[1..], b[1..]) {
      SubseqMultiset(a[1..], b[1..]);
      assert a == [a[0]] + a[1..];
    } else {
      SubseqMultiset(a, b[1..]);
    }
  }

  lemma {:induction false} SubseqTrans<T>(a: seq<T>, b: seq<T>, c: seq<T>)
    requires Subseq(a, b) && Subseq(b, c)
    ensures Subseq(a, c)
    decreases |c|
  {
    if |a| == 0 {
      return;
    }
    if Subseq(b, c[1..]) {
      SubseqTrans(a, b, c[1..]);
    } else if a[0] == b[0] && Subseq(a[1..], b[1..]) {
      SubseqTrans(a[1..], b[1..], c[1..]);
    } else {
      SubseqTrans(a, b[1..], c[1..]);
    }
  }

  lemma {:induction false} SubseqRefl<T>(s: seq<T>)
    ensures Subseq(s, s)
    decreases |s|
  {
    if |s| > 0 {
      SubseqRefl(s[1..]);
    }
  }

  lemma {:induction false} PrefixSubseq<T>(s: seq<T>, n: nat)
    requires n <= |s|
    ensures Subseq(s[..n], s)
    decreases n
  {
    if n > 0 {
      PrefixSubseq(s[1..], n - 1);
      assert s[..n][1..] == s[1..][..n - 1];
    }
  }

  /** The first `n` elements, or all of them when there are fewer (`head(n)`). */
  function Take<T>(s: seq<T>, n: nat): (r: seq<T>)
    ensures |r| == if n < |s| then n else |s|
    ensures r == s[..|r|]
  {
    if n < |s| then s[..n] else s
  }

  /** A prefix one longer than `n` is the first element, then `n` elements of the tail. */
  lemma PrefixTail<T>(s: seq<T>, n: nat)
    requires n < |s|
    ensures s[..n + 1] == [s[0]] + s[1..][..n]
  {
    assert s[..n + 1][1..] == s[1..][..n];
  }

  /** Taking `k` elements past a shorter head takes the head and the rest from the tail. */
  lemma TakeAfterHead<T>(h: seq<T>, s: seq<T>, k: nat)
    requires |h| <= k
    ensures Take(h + s, k) == h + Take(s, k - |h|)
  {
    var n := k - |h|;
    if n < |s| {
      assert (h + s)[..k] == h + s[..n];
    }
  }

  /** The elements of `s` not in `seen`, each once, in order of first appearance. */
  function UniqueFrom<T(==,!new)>(s: seq<T>, seen: set<T>): (r: seq<T>)
    ensures Distinct(r)
    ensures forall x :: x in r <==> x in s && x !in seen
    decreases |s|
  {
    if |s| == 0 then []
    else if s[0] in seen then UniqueFrom(s[1..], seen)
    else [s[0]] + UniqueFrom(s[1..], seen + {s[0]})
  }

  /** The distinct elements of `s` in order of first appearance (pandas' `unique()`). */
  function Unique<T(==,!new)>(s: seq<T>): (r: seq<T>)
    ensures Distinct(r)
    ensures forall x :: x in r <==> x in s
  {
    UniqueFrom(s, {})
  }

  lemma {:induction false} DistinctCounts<T>(s: seq<T>)
    requires Distinct(s)
    ensures forall x :: multiset(s)[x] <= 1
    decreases |s|
  {
    if |s| > 0 {
      DistinctCounts(s[1..]);
      assert s == [s[0]] + s[1..];
      assert s[0] !in s[1..];
    }
  }

  lemma CountsDistinct<T>(s: seq<T>)
    requires forall x :: multiset(s)[x] <= 1
    ensures Distinct(s)
  {
    forall i, j | 0 <= i < j < |s|
      ensures s[i] != s[j]
    {
      assert s == s[..j] + s[j..];
      assert s[i] in s[..j];
      assert multiset(s)[s[j]] == multiset(s[..j])[s[j]] + multiset(s[j..])[s[j]];
    }
  }

  /** Every element of a sub-multiset is an element of the larger sequence. */
  lemma SubMembers<T>(r: seq<T>, s: seq<T>)
    requires multiset(r) <= multiset(s)
    ensures forall x :: x in r ==> x in s
  {
    forall x | x in r ensures x in s {
      assert x in multiset(r);
    }
  }

  /** A sub-multiset of a sequence whose keys are distinct has distinct keys too. */
  lemma KeysDistinctSub<T, K>(s: seq<T>, r: seq<T>, key: T -> K)
    requires KeysDistinct(s, key)
    requires multiset(r) <= multiset(s)
    ensures KeysDistinct(r, key)
  {
    assert Distinct(s);
    DistinctCounts(s);
    assert forall x :: multiset(r)[x] <= multiset(s)[x];
    CountsDistinct(r);
    forall i, j | 0 <= i < j < |r|
      ensures key(r[i]) != key(r[j])
    {
      assert r[i] in multiset(s) && r[j] in multiset(s);
      var p :| 0 <= p < |s| && s[p] == r[i];
      var q :| 0 <= q < |s| && s[q] == r[j];
      assert p != q;
    }
  }

  /** Sum over the values `vs` of how often each occurs in `m`. */
  function Tally<T>(m: multiset<T>, vs: seq<T>): nat {
    if |vs| == 0 then 0 else m[vs[0]] + Tally(m, vs[1..])
  }

  lemma {:induction false} TallyEmpty<T>(vs: seq<T>)
    ensures Tally(multiset{}, vs) == 0
    decreases |vs|
  {
    if |vs| > 0 {
      TallyEmpty(vs[1..]);
    }
  }

  lemma {:induction false} TallyAddOne<T>(m: multiset<T>, x: T, vs: seq<T>)
    requires Distinct(vs)
    ensures Tally(m + multiset{x}, vs) == Tally(m, vs) + (if x in vs then 1 else 0)
    decreases |vs|
  {
    if |vs| > 0 {
      TallyAddOne(m, x, vs[1..]);
      if x == vs[0] {
        assert x !in vs[1..];
      }
    }
  }

  lemma TallyThree<T>(m: multiset<T>, a: T, b: T, c: T)
    ensures Tally(m, [a, b, c]) == m[a] + m[b] + m[c]
  {
    assert [a, b, c][1..] == [b, c];
    assert [b, c][1..] == [c];
    assert [c][1..] == [];
    assert Tally(m, [c]) == m[c];
    assert Tally(m, [b, c]) == m[b] + m[c];
  }

  /** Counting the occurrences of distinct values never counts a row twice; when the
      values cover every element, each element is counted exactly once. */
  lemma {:induction false} TallyBound<T>(s: seq<T>, vs: seq<T>)
    requires Distinct(vs)
    ensures Tally(multiset(s), vs) <= |s|
    ensures (forall x :: x in s ==> x in vs) ==> Tally(multiset(s), vs) == |s|
    decreases |s|
  {
    if |s| == 0 {
      TallyEmpty(vs);
    } else {
      TallyBound(s[1..], vs);
      assert s == [s[0]] + s[1..];
      assert multiset(s) == multiset(s[1..]) + multiset{s[0]};
      TallyAddOne(multiset(s[1..]), s[0], vs);
    }
  }

  /** A sub-multiset as large as the whole is the whole. */
  lemma {:induction false} SubMultisetSameSize<T>(a: multiset<T>, b: multiset<T>)
    requires a <= b && |a| == |b|
    ensures a == b
    decreases |a|
  {
    if |a| > 0 {
      var x :| x in a;
      SubMultisetSameSize(a - multiset{x}, b - multiset{x});
      assert a == (a - multiset{x}) + multiset{x};
      assert b == (b - multiset{x}) + multiset{x};
    }
  }

  function Total(ns: seq<nat>): nat
    decreases |ns|
  {
    if |ns| == 0 then 0 else ns[0] + Total(ns[1..])
  }

  /** Counting each of a list of distinct values that covers `s`, and adding the counts up,
      counts every element of `s` exactly once. */
  lemma CountsAddUp<T>(s: seq<T>, vs: seq<T>, ns: seq<nat>)
    requires Distinct(vs)
    requires forall x :: x in s ==> x in vs
    requires |ns| == |vs|
    requires forall j :: 0 <= j < |vs| ==> ns[j] == multiset(s)[vs[j]]
    ensures Total(ns) == |s|
  {
    TallyAsTotal(multiset(s), vs, ns);
    TallyBound(s, vs);
  }

  /** Adding up a count per value is tallying those values. */
  lemma {:induction false} TallyAsTotal<T>(m: multiset<T>, vs: seq<T>, ns: seq<nat>)
    requires |ns| == |vs|
    requires forall j :: 0 <= j < |vs| ==> ns[j] == m[vs[j]]
    ensures Total(ns) == Tally(m, vs)
    decreases |vs|
  {
    if |vs| > 0 {
      TallyAsTotal(m, vs[1..], ns[1..]);
    }
  }

  /** In a list without repeats, no element occurs again after its own position. */
  lemma NoLaterRepeat<T>(s: seq<T>)
    requires Distinct(s)
    ensures forall k :: 0 <= k < |s| ==> s[k] !in s[k + 1..]
  {
    forall k | 0 <= k < |s| ensures s[k] !in s[k + 1..] {
      LaterDiffer(s, k);
    }
  }

  /** A distinct sequence's element does not recur after its position. */
  lemma LaterDiffer<T>(s: seq<T>, k: nat)
    requires Distinct(s) && k < |s|
    ensures s[k] !in s[k + 1..]
  {
    var later := s[k + 1..];
    forall j | 0 <= j < |later| ensures later[j] != s[k] {
      assert later[j] == s[k + 1 + j];
    }
  }
}

=== FILE: crosstab.dfy ===
/** `groupby(["Place Type", "Sentiment Label"]).size().unstack(fill_value=0)`: how many
    reviews of each place type carry each sentiment label. */
module Crosstab {
  import opened Collections
  import opened Ordering
  import opened Reviews
  import opened Filters

  /** The unstacked table: a row per place type and a column per sentiment label, both in
      sorted order, as `groupby` sorts its keys. */
  datatype Table = Table(types: seq<string>, labels: seq<string>, cells: seq<seq<nat>>)

  /** The number of reviews of type `t` labelled `l`. */
  function PairCount(rows: seq<Review>, t: string, l: string): (n: nat)
    ensures n == |Where(Where(rows, PlaceType, [t]), Sentiment, [l])|
    ensures n == 0 <==> !exists x :: x in rows && x.placeType == t && x.sentiment == l
    decreases |rows|
  {
    if |rows| == 0 then 0
    else
      var rest := PairCount(rows[1..], t, l);
      assert forall x :: x in rows <==> x == rows[0] || x in rows[1..];
      if rows[0].placeType == t && rows[0].sentiment == l then rest + 1 else rest
  }

  /** `type_sentiment`: the cross-tabulation, with 0 for a (type, label) pair no review has. */
  function TypeSentiment(rows: seq<Review>): (tab: Table)
    ensures StrictlySorted(tab.types)
    ensures forall t :: t in tab.types <==> exists x :: x in rows && x.placeType == t
    ensures StrictlySorted(tab.labels)
    ensures forall l :: l in tab.labels <==> exists x :: x in rows && x.sentiment == l
    ensures |tab.cells| == |tab.types|
    ensures forall i :: 0 <= i < |tab.cells| ==> |tab.cells[i]| == |tab.labels|
    ensures forall i, j :: 0 <= i < |tab.types| && 0 <= j < |tab.labels| ==>
      tab.cells[i][j] == |Where(Where(rows, PlaceType, [tab.types[i]]), Sentiment, [tab.labels[j]])|
    ensures forall i, j :: 0 <= i < |tab.types| && 0 <= j < |tab.labels| ==>
      (tab.cells[i][j] == 0 <==> !exists x :: x in rows && x.placeType == tab.types[i] && x.sentiment == tab.labels[j])
  {
    var types := SortedOptions(rows, PlaceType);
    var labels := SortedOptions(rows, Sentiment);
    Table(types, labels, Cells(rows, types, labels))
  }

  /** The counts of every (type, label) pair of `types` and `labels`, row by row. */
  function Cells(rows: seq<Review>, types: seq<string>, labels: seq<string>): (cells: seq<seq<nat>>)
    ensures |cells| == |types|
    ensures forall i :: 0 <= i < |cells| ==> |cells[i]| == |labels|
    ensures forall i, j :: 0 <= i < |types| && 0 <= j < |labels| ==>
      cells[i][j] == |Where(Where(rows, PlaceType, [types[i]]), Sentiment, [labels[j]])|
    ensures forall i, j :: 0 <= i < |types| && 0 <= j < |labels| ==>
      (cells[i][j] == 0 <==> !exists x :: x in rows && x.placeType == types[i] && x.sentiment == labels[j])
  {
    seq(|types|, i requires 0 <= i < |types| =>
      seq(|labels|, j requires 0 <= j < |labels| => PairCount(rows, types[i], labels[j])))
  }

  /** The sum of every cell of the table. */
  function CellTotal(cells: seq<seq<nat>>): nat
    decreases |cells|
  {
    if |cells| == 0 then 0 else Total(cells[0]) + CellTotal(cells[1..])
  }

  /** Every review lands in exactly one cell, so the cells add up to the table size. */
  lemma CrosstabTotal(rows: seq<Review>)
    ensures CellTotal(TypeSentiment(rows).cells) == |rows|
  {
    var tab := TypeSentiment(rows);
    CrosstabCovers(rows);
    TableTotal(rows, tab.types, tab.labels, tab.cells);
  }

  /** The table's keys are listed once each and cover every review. */
  lemma CrosstabCovers(rows: seq<Review>)
    ensures Distinct(TypeSentiment(rows).types) && Distinct(TypeSentiment(rows).labels)
    ensures forall x :: x in rows ==> x.placeType in TypeSentiment(rows).types && x.sentiment in TypeSentiment(rows).labels
  {
    var types, labels := SortedOptions(rows, PlaceType), SortedOptions(rows, Sentiment);
    assert StrictlySorted(types) && StrictlySorted(labels);
    forall x | x in rows ensures x.placeType in types && x.sentiment in labels {
      assert Field(x, PlaceType) == x.placeType && Field(x, Sentiment) == x.sentiment;
    }
    assert TypeSentiment(rows).types == types && TypeSentiment(rows).labels == labels;
  }

  lemma TableTotal(rows: seq<Review>, types: seq<string>, labels: seq<string>, cells: seq<seq<nat>>)
    requires Distinct(types) && Distinct(labels)
    requires forall x :: x in rows ==> x.placeType in types && x.sentiment in labels
    requires |cells| == |types|
    requires forall i :: 0 <= i < |cells| ==> |cells[i]| == |labels|
    requires forall i, j :: 0 <= i < |types| && 0 <= j < |labels| ==>
      cells[i][j] == |Where(Where(rows, PlaceType, [types[i]]), Sentiment, [labels[j]])|
    ensures CellTotal(cells) == |rows|
  {
    var totals := seq(|types|, i requires 0 <= i < |types| => |Where(rows, PlaceType, [types[i]])|);
    forall i | 0 <= i < |types| ensures Total(cells[i]) == totals[i] {
      RowTotal(rows, labels, cells[i], types[i]);
    }
    CellTotalRows(cells, totals);
    TypeTotals(rows, types, totals);
  }

  /** The per-type row totals add up to the table size when every type is listed once. */
  lemma TypeTotals(rows: seq<Review>, types: seq<string>, totals: seq<nat>)
    requires Distinct(types)
    requires forall x :: x in rows ==> x.placeType in types
    requires |totals| == |types|
    requires forall i :: 0 <= i < |types| ==> totals[i] == |Where(rows, PlaceType, [types[i]])|
    ensures Total(totals) == |rows|
  {
    var vs := Values(rows, PlaceType);
    forall i | 0 <= i < |types| ensures totals[i] == multiset(vs)[types[i]] {
      WhereCount(rows, PlaceType, types[i]);
    }
    ValuesCovered(rows, PlaceType, types);
    CountsAddUp(vs, types, totals);
  }

  /** A row of the table adds up to the number of reviews of its type. */
  lemma RowTotal(rows: seq<Review>, labels: seq<string>, row: seq<nat>, t: string)
    requires Distinct(labels)
    requires forall x :: x in rows ==> x.sentiment in labels
    requires |row| == |labels|
    requires forall j :: 0 <= j < |labels| ==> row[j] == |Where(Where(rows, PlaceType, [t]), Sentiment, [labels[j]])|
    ensures Total(row) == |Where(rows, PlaceType, [t])|
  {
    var sub := Where(rows, PlaceType, [t]);
    var vs := Values(sub, Sentiment);
    forall j | 0 <= j < |labels| ensures row[j] == multiset(vs)[labels[j]] {
      WhereCount(sub, Sentiment, labels[j]);
    }
    ValuesCovered(sub, Sentiment, labels);
    CountsAddUp(vs, labels, row);
  }

  lemma {:induction false} CellTotalRows(cells: seq<seq<nat>>, totals: seq<nat>)
    requires |totals| == |cells|
    requires forall i :: 0 <= i < |cells| ==> Total(cells[i]) == totals[i]
    ensures CellTotal(cells) == Total(totals)
    decreases |cells|
  {
    if |cells| > 0 {
      CellTotalRows(cells[1..], totals[1..]);
    }
  }
}

=== FILE: filters.dfy ===
/** The row selections of the dashboard's pages.

    - The main page's sidebar: three cascading multiselects, Region, then City, then
      Place Type, each offering the values left by the levels above it; an empty
      multiselect does not restrict.
    - The topic pages: one city and one place type, each picked from a sorted list.
    - The comparison page: one region and an optional multiselect of its place types,
      with an explicit "no data" outcome for an empty selection. */
module Filters {
  import opened Collections
  import opened Ordering
  import opened Reviews

  /** An empty multiselect admits every value. */
  predicate Admits(sel: seq<string>, v: string) {
    |sel| == 0 || v in sel
  }

  /** One level of the sidebar cascade: `rows[rows[c].isin(sel)] if sel else rows`. */
  function Restrict(rows: seq<Review>, c: Column, sel: seq<string>): (r: seq<Review>)
    ensures forall x :: x in r <==> x in rows && Admits(sel, Field(x, c))
    ensures forall x {:trigger multiset(r)[x]} :: multiset(r)[x] == if Admits(sel, Field(x, c)) then multiset(rows)[x] else 0
    ensures Subseq(r, rows)
    ensures |sel| == 0 ==> r == rows
  {
    SubseqRefl(rows);
    if |sel| == 0 then rows else Where(rows, c, sel)
  }

  /** The three sidebar multiselects of the main page. */
  datatype Selection = Selection(regions: seq<string>, cities: seq<string>, placeTypes: seq<string>)

  predicate Matches(x: Review, s: Selection) {
    Admits(s.regions, x.region) && Admits(s.cities, x.city) && Admits(s.placeTypes, x.placeType)
  }

  /** The main page's `filtered` table: exactly the rows every level admits, in input order. */
  function Cascade(rows: seq<Review>, s: Selection): (r: seq<Review>)
    ensures forall x :: x in r <==> x in rows && Matches(x, s)
    ensures forall x {:trigger multiset(r)[x]} :: multiset(r)[x] == if Matches(x, s) then multiset(rows)[x] else 0
    ensures Subseq(r, rows)
  {
    var byRegion := Restrict(rows, Region, s.regions);
    var byCity := Restrict(byRegion, City, s.cities);
    var byType := Restrict(byCity, PlaceType, s.placeTypes);
    SubseqTrans(byCity, byRegion, rows);
    SubseqTrans(byType, byCity, rows);
    byType
  }

  /** `rows[c].unique()`: each value present in the column once. */
  function Options(rows: seq<Review>, c: Column): (r: seq<string>)
    ensures Distinct(r)
    ensures forall v :: v in r <==> exists x :: x in rows && Field(x, c) == v
  {
    var vs := Values(rows, c);
    assert forall v :: v in vs <==> exists x :: x in rows && Field(x, c) == v by {
      forall v | v in vs ensures exists x :: x in rows && Field(x, c) == v {
        var i :| 0 <= i < |vs| && vs[i] == v;
        assert rows[i] in rows;
      }
      forall v | exists x :: x in rows && Field(x, c) == v ensures v in vs {
        var x :| x in rows && Field(x, c) == v;
        var i :| 0 <= i < |rows| && rows[i] == x;
        assert vs[i] == v;
      }
    }
    Unique(vs)
  }

  /** What the three sidebar multiselects offer. */
  datatype Menu = Menu(regions: seq<string>, cities: seq<string>, placeTypes: seq<string>)

  /** Each level's options are the values present in the rows the levels above admit. */
  function SidebarMenu(rows: seq<Review>, s: Selection): (m: Menu)
    ensures forall v :: v in m.regions <==> exists x :: x in rows && x.region == v
    ensures forall v :: v in m.cities <==>
      exists x :: x in rows && Admits(s.regions, x.region) && x.city == v
    ensures forall v :: v in m.placeTypes <==>
      exists x :: x in rows && Admits(s.regions, x.region) && Admits(s.cities, x.city) && x.placeType == v
    ensures Distinct(m.regions) && Distinct(m.cities) && Distinct(m.placeTypes)
  {
    var byRegion := Restrict(rows, Region, s.regions);
    var byCity := Restrict(byRegion, City, s.cities);
    Menu(Options(rows, Region), Options(byRegion, City), Options(byCity, PlaceType))
  }

  /** Picking any offered city (with the region choice kept) never empties the table. */
  lemma OfferedCityHasRows(rows: seq<Review>, s: Selection, v: string)
    requires v in SidebarMenu(rows, s).cities
    ensures |Cascade(rows, Selection(s.regions, [v], []))| > 0
  {
    var x :| x in rows && Admits(s.regions, x.region) && x.city == v;
    assert x in Cascade(rows, Selection(s.regions, [v], []));
  }

  /** Picking any offered place type (with the upper choices kept) never empties the table. */
  lemma OfferedTypeHasRows(rows: seq<Review>, s: Selection, v: string)
    requires v in SidebarMenu(rows, s).placeTypes
    ensures |Cascade(rows, Selection(s.regions, s.cities, [v]))| > 0
  {
    var x :| x in rows && Admits(s.regions, x.region) && Admits(s.cities, x.city) && x.placeType == v;
    assert x in Cascade(rows, Selection(s.regions, s.cities, [v]));
  }

  lemma RestrictAll(rows: seq<Review>, c: Column, sel: seq<string>)
    requires forall x :: x in rows ==> Admits(sel, Field(x, c))
    ensures Restrict(rows, c, sel) == rows
  {
    if |sel| > 0 {
      WhereAll(rows, c, sel);
    }
  }

  /** Filtering the filtered table again with the same selection changes nothing. */
  lemma CascadeIdempotent(rows: seq<Review>, s: Selection)
    ensures Cascade(Cascade(rows, s), s) == Cascade(rows, s)
  {
    var f := Cascade(rows, s);
    RestrictAll(f, Region, s.regions);
    RestrictAll(f, City, s.cities);
    RestrictAll(f, PlaceType, s.placeTypes);
  }

  // ---------------------------------------------------------------------------
  // Topic pages: one city and one place type.

  /** `df[(df['City'] == city) & (df['Place Type'] == placeType)]`. */
  function FocusRows(rows: seq<Review>, city: string, placeType: string): (r: seq<Review>)
    ensures forall x :: x in r <==> x in rows && x.city == city && x.placeType == placeType
    ensures forall x {:trigger multiset(r)[x]} :: multiset(r)[x] == (if x.city == city && x.placeType == placeType then multiset(rows)[x] else 0)
    ensures Subseq(r, rows)
    decreases |rows|
  {
    if |rows| == 0 then []
    else
      assert rows == [rows[0]] + rows[1..];
      if rows[0].city == city && rows[0].placeType == placeType then
        [rows[0]] + FocusRows(rows[1..], city, placeType)
      else FocusRows(rows[1..], city, placeType)
  }

  /** The one-city, one-type filter is the sidebar cascade with no region restriction. */
  lemma {:induction false} FocusIsCascade(rows: seq<Review>, city: string, placeType: string)
    ensures FocusRows(rows, city, placeType) == Cascade(rows, Selection([], [city], [placeType]))
    decreases |rows|
  {
    FocusIsNestedWhere(rows, city, placeType);
  }

  lemma {:induction false} FocusIsNestedWhere(rows: seq<Review>, city: string, placeType: string)
    ensures FocusRows(rows, city, placeType) == Where(Where(rows, City, [city]), PlaceType, [placeType])
    decreases |rows|
  {
    if |rows| > 0 {
      FocusIsNestedWhere(rows[1..], city, placeType);
      if rows[0].city == city {
        var w := Where(rows[1..], City, [city]);
        assert Where(rows, City, [city]) == [rows[0]] + w;
        assert ([rows[0]] + w)[1..] == w;
      }
    }
  }

  /** `sorted(rows[c].unique())`. */
  function SortedOptions(rows: seq<Review>, c: Column): (r: seq<string>)
    ensures StrictlySorted(r)
    ensures forall v :: v in r <==> exists x :: x in rows && Field(x, c) == v
  {
    var opts := Options(rows, c);
    var r := SortedUnique(opts);
    r
  }

  /** The options offered do not depend on the order of the table's rows. */
  lemma OptionsIgnoreRowOrder(rows: seq<Review>, shuffled: seq<Review>, c: Column)
    requires multiset(rows) == multiset(shuffled)
    ensures SortedOptions(rows, c) == SortedOptions(shuffled, c)
  {
    var a, b := SortedOptions(rows, c), SortedOptions(shuffled, c);
    forall v ensures v in a <==> v in b {
      if v in a {
        var x :| x in rows && Field(x, c) == v;
        assert x in multiset(shuffled);
      }
      if v in b {
        var x :| x in shuffled && Field(x, c) == v;
        assert x in multiset(rows);
      }
    }
    StrictlySortedUnique(a, b);
  }

  /** The city select box: every city of the table once, in sorted order. */
  function CityChoices(rows: seq<Review>): (r: seq<string>)
    ensures StrictlySorted(r)
    ensures forall v :: v in r <==> exists x :: x in rows && x.city == v
  {
    SortedOptions(rows, City)
  }

  /** The place-type select box: the types present in the chosen city, sorted. */
  function PlaceTypeChoices(rows: seq<Review>, city: string): (r: seq<string>)
    ensures StrictlySorted(r)
    ensures forall v :: v in r <==> exists x :: x in rows && x.city == city && x.placeType == v
  {
    SortedOptions(Where(rows, City, [city]), PlaceType)
  }

  /** Every offered (city, place type) pair selects at least one review. */
  lemma OfferedPairHasRows(rows: seq<Review>, city: string, placeType: string)
    requires city in CityChoices(rows)
    requires placeType in PlaceTypeChoices(rows, city)
    ensures |FocusRows(rows, city, placeType)| > 0
  {
    var x :| x in rows && x.city == city && x.placeType == placeType;
    assert x in FocusRows(rows, city, placeType);
  }

  // ---------------------------------------------------------------------------
  // Comparison page: one region and an optional multiselect of its place types.

  /** The place types offered for a region: those occurring in its rows. */
  function RegionTypeOptions(rows: seq<Review>, region: string): (r: seq<string>)
    ensures Distinct(r)
    ensures forall v :: v in r <==> exists x :: x in rows && x.region == region && x.placeType == v
  {
    Options(Where(rows, Region, [region]), PlaceType)
  }

  /** `review[(Region == region) & (Place Type isin types)]`. */
  function RegionTypeRows(rows: seq<Review>, region: string, types: seq<string>): (r: seq<Review>)
    ensures forall x :: x in r <==> x in rows && x.region == region && x.placeType in types
    ensures forall x {:trigger multiset(r)[x]} :: multiset(r)[x] == (if x.region == region && x.placeType in types then multiset(rows)[x] else 0)
    ensures Subseq(r, rows)
    decreases |rows|
  {
    if |rows| == 0 then []
    else
      assert rows == [rows[0]] + rows[1..];
      if rows[0].region == region && rows[0].placeType in types then
        [rows[0]] + RegionTypeRows(rows[1..], region, types)
      else RegionTypeRows(rows[1..], region, types)
  }

  /** One side of the comparison: the region's rows, narrowed to the chosen place types
      when any are chosen. */
  function RegionRows(rows: seq<Review>, region: string, types: seq<string>): (r: seq<Review>)
    ensures forall x :: x in r <==> x in rows && x.region == region && Admits(types, x.placeType)
    ensures forall x {:trigger multiset(r)[x]} :: multiset(r)[x] == (if x.region == region && Admits(types, x.placeType) then multiset(rows)[x] else 0)
    ensures Subseq(r, rows)
  {
    if |types| > 0 then RegionTypeRows(rows, region, types)
    else Where(rows, Region, [region])
  }

  lemma {:induction false} RegionTypeIsNestedWhere(rows: seq<Review>, region: string, types: seq<string>)
    ensures RegionTypeRows(rows, region, types) == Where(Where(rows, Region, [region]), PlaceType, types)
    decreases |rows|
  {
    if |rows| > 0 {
      RegionTypeIsNestedWhere(rows[1..], region, types);
      if rows[0].region == region {
        var w := Where(rows[1..], Region, [region]);
        assert Where(rows, Region, [region]) == [rows[0]] + w;
        assert ([rows[0]] + w)[1..] == w;
      }
    }
  }

  /** A comparison side is the sidebar cascade restricted to one region and no city. */
  lemma RegionRowsIsCascade(rows: seq<Review>, region: string, types: seq<string>)
    ensures RegionRows(rows, region, types) == Cascade(rows, Selection([region], [], types))
  {
    if |types| > 0 {
      RegionTypeIsNestedWhere(rows, region, types);
    }
  }

  /** The sentiment bar chart, or the "no data" notice. */
  datatype Chart = NoData | Bars(positive: nat, neutral: nat, negative: nat)

  /** `countplot(x="Sentiment Label", order=["positive", "neutral", "negative"])`, drawn only
      when the selection is non-empty. */
  function SentimentChart(rows: seq<Review>): (c: Chart)
    ensures c.NoData? <==> |rows| == 0
    ensures c.Bars? ==>
      && c.positive == |Where(rows, Sentiment, ["positive"])|
      && c.neutral == |Where(rows, Sentiment, ["neutral"])|
      && c.negative == |Where(rows, Sentiment, [NegativeLabel])|
    ensures c.Bars? ==> c.positive + c.neutral + c.negative <= |rows|
    ensures c.Bars? && (forall x :: x in rows ==> x.sentiment in ["positive", "neutral", "negative"]) ==>
      c.positive + c.neutral + c.negative == |rows|
  {
    if |rows| == 0 then NoData
    else
      var m := multiset(Values(rows, Sentiment));
      WhereCount(rows, Sentiment, "positive");
      WhereCount(rows, Sentiment, "neutral");
      WhereCount(rows, Sentiment, NegativeLabel);
      LabelTally(rows);
      Bars(m["positive"], m["neutral"], m["negative"])
  }

  /** The three charted labels count each row at most once, and every row when every
      label is one of them. */
  lemma LabelTally(rows: seq<Review>)
    ensures var m := multiset(Values(rows, Sentiment));
      m["positive"] + m["neutral"] + m["negative"] <= |rows|
    ensures var m := multiset(Values(rows, Sentiment));
      (forall x :: x in rows ==> x.sentiment in ["positive", "neutral", "negative"]) ==>
        m["positive"] + m["neutral"] + m["negative"] == |rows|
  {
    var labels := Values(rows, Sentiment);
    assert "positive" != "neutral" && "positive" != "negative" && "neutral" != "negative";
    DistinctThree("positive", "neutral", "negative");
    TallyBound(labels, ["positive", "neutral", "negative"]);
    TallyThree(multiset(labels), "positive", "neutral", "negative");
    LabelsCovered(rows, ["positive", "neutral", "negative"]);
  }

  lemma LabelsCovered(rows: seq<Review>, order: seq<string>)
    ensures (forall x :: x in rows ==> x.sentiment in order) ==>
      forall v :: v in Values(rows, Sentiment) ==> v in order
  {
    var labels := Values(rows, Sentiment);
    forall v | v in labels && (forall x :: x in rows ==> x.sentiment in order) ensures v in order {
      var i :| 0 <= i < |labels| && labels[i] == v;
      assert rows[i] in rows;
    }
  }
}

=== FILE: interpret.dfy ===
/** The plain-language reading of a topic on the topic-exploration page: a header that
    lists the topic's keywords, followed by one canned remark for each concern whose
    trigger words appear among those keywords. */
module Interpretation {

  /** `part` occurs in `whole` starting at position `p`. */
  predicate SliceAt(whole: string, part: string, p: nat) {
    p + |part| <= |whole| && whole[p..p + |part|] == part
  }

  /** `sep.join(ks)`. */
  function Join(ks: seq<string>, sep: string): string
    decreases |ks|
  {
    if |ks| == 0 then ""
    else if |ks| == 1 then ks[0]
    else ks[0] + sep + Join(ks[1..], sep)
  }

  /** The summed lengths of the strings in `ks`. */
  function Chars(ks: seq<string>): nat
    decreases |ks|
  {
    if |ks| == 0 then 0 else |ks[0]| + Chars(ks[1..])
  }

  /** The joined string is every keyword plus one separator between each neighbouring pair. */
  lemma {:induction false} JoinLength(ks: seq<string>, sep: string)
    requires |ks| > 0
    ensures |Join(ks, sep)| == Chars(ks) + (|ks| - 1) * |sep|
    decreases |ks|
  {
    if |ks| > 1 {
      JoinLength(ks[1..], sep);
    }
  }

  /** Every keyword appears, whole, inside the joined string. */
  lemma {:induction false} JoinShowsEveryKeyword(ks: seq<string>, sep: string, i: nat)
    requires i < |ks|
    ensures exists p: nat :: SliceAt(Join(ks, sep), ks[i], p)
    decreases |ks|
  {
    var j := Join(ks, sep);
    if i == 0 {
      if |ks| > 1 {
        assert j == ks[0] + (sep + Join(ks[1..], sep));
      }
      assert SliceAt(j, ks[0], 0);
    } else {
      JoinShowsEveryKeyword(ks[1..], sep, i - 1);
      var rest := Join(ks[1..], sep);
      var q: nat :| SliceAt(rest, ks[1..][i - 1], q);
      var front := ks[0] + sep;
      assert j == front + rest;
      assert j[|front| + q..|front| + q + |ks[i]|] == rest[q..q + |ks[i]|];
      assert SliceAt(j, ks[i], |front| + q);
    }
  }

  /** The four complaints the page knows how to recognise, in the order it checks them. */
  datatype Concern = Delay | Food | Service | Improvements

  const AllConcerns: seq<Concern> := [Delay, Food, Service, Improvements]

  /** Where a concern sits in the page's order of tests. */
  function Position(c: Concern): (k: nat)
    ensures k < |AllConcerns| && AllConcerns[k] == c
  {
    match c
    case Delay => 0
    case Food => 1
    case Service => 2
    case Improvements => 3
  }

  /** The keywords that raise a concern. */
  function Triggers(c: Concern): seq<string> {
    match c
    case Delay => ["slow", "wait"]
    case Food => ["tasted", "food"]
    case Service => ["cashier", "service"]
    case Improvements => ["improvements"]
  }

  const DelayRemark: string := "It seems that customers are complaining about delays or slow service."
  const FoodRemark: string := "There could be concerns regarding the quality of food or taste."
  const ServiceRemark: string := "Issues with service and cashier experience seem to be mentioned frequently."
  const ImprovementsRemark: string := "Customers are asking for improvements in overall service or quality."

  /** The sentence the page adds when a concern is raised. */
  function Remark(c: Concern): string {
    match c
    case Delay => DelayRemark
    case Food => FoodRemark
    case Service => ServiceRemark
    case Improvements => ImprovementsRemark
  }

  predicate Raised(c: Concern, keywords: seq<string>) {
    exists w :: w in Triggers(c) && w in keywords
  }

  /** Every canned sentence says something. */
  lemma RemarkNonEmpty(c: Concern)
    ensures |Remark(c)| > 0
  {
  }

  /** The sentences of the raised concerns among `cs`, in order. */
  function Remarks(cs: seq<Concern>, keywords: seq<string>): string
    decreases |cs|
  {
    if |cs| == 0 then ""
    else Part(Raised(cs[0], keywords), cs[0]) + Remarks(cs[1..], keywords)
  }

  /** A concern's sentence if it is raised, nothing otherwise. */
  function Part(raised: bool, c: Concern): string {
    if raised then Remark(c) else ""
  }

  const Lead: string := "Topic based on keywords: "

  function Header(keywords: seq<string>): string {
    Lead + Join(keywords, ", ") + ". "
  }

  /** One `if ...: interpretation += sentence` step. */
  function Step(s: string, test: bool, c: Concern): string {
    if test then s + Remark(c) else s
  }

  /** `interpret_topic(keywords)`: the header, then the sentence of each raised concern in
      the fixed order Delay, Food, Service, Improvements, each test made independently. */
  function InterpretTopic(keywords: seq<string>): (r: string)
    ensures r == Header(keywords) + Remarks(AllConcerns, keywords)
  {
    var s0 := Header(keywords);
    var s1 := Step(s0, "slow" in keywords || "wait" in keywords, Delay);
    var s2 := Step(s1, "tasted" in keywords || "food" in keywords, Food);
    var s3 := Step(s2, "cashier" in keywords || "service" in keywords, Service);
    var s4 := Step(s3, "improvements" in keywords, Improvements);
    TriggerTests(keywords);
    ReadingIsRemarks(keywords, s0, s1, s2, s3, s4);
    s4
  }

  lemma ReadingIsRemarks(keywords: seq<string>, s0: string, s1: string, s2: string, s3: string, s4: string)
    requires s1 == Step(s0, Raised(Delay, keywords), Delay)
    requires s2 == Step(s1, Raised(Food, keywords), Food)
    requires s3 == Step(s2, Raised(Service, keywords), Service)
    requires s4 == Step(s3, Raised(Improvements, keywords), Improvements)
    ensures s4 == s0 + Remarks(AllConcerns, keywords)
  {
    var p1, p2 := Part(Raised(Delay, keywords), Delay), Part(Raised(Food, keywords), Food);
    var p3 := Part(Raised(Service, keywords), Service);
    var p4 := Part(Raised(Improvements, keywords), Improvements);
    StepIsAppend(s0, Raised(Delay, keywords), Delay);
    StepIsAppend(s1, Raised(Food, keywords), Food);
    StepIsAppend(s2, Raised(Service, keywords), Service);
    StepIsAppend(s3, Raised(Improvements, keywords), Improvements);
    AppendAssoc(s0 + p1 + p2, p3, p4);
    AppendAssoc(s0 + p1, p2, p3 + p4);
    AppendAssoc(s0, p1, p2 + (p3 + p4));
    RemarksOfAll(keywords);
  }

  lemma StepIsAppend(s: string, test: bool, c: Concern)
    ensures Step(s, test, c) == s + Part(test, c)
  {
    if !test {
      assert s + "" == s;
    }
  }

  /** Regrouping a concatenation; stated on its own so that callers with large contexts
      need not prove sequence equality in place. */
  lemma AppendAssoc(a: string, b: string, c: string)
    ensures a + b + c == a + (b + c)
  {
  }

  /** The four tests `interpret_topic` makes are exactly the concerns' trigger lists. */
  lemma TriggerTests(keywords: seq<string>)
    ensures Raised(Delay, keywords) <==> "slow" in keywords || "wait" in keywords
    ensures Raised(Food, keywords) <==> "tasted" in keywords || "food" in keywords
    ensures Raised(Service, keywords) <==> "cashier" in keywords || "service" in keywords
    ensures Raised(Improvements, keywords) <==> "improvements" in keywords
  {
    assert Triggers(Delay) == ["slow", "wait"];
    assert Triggers(Food) == ["tasted", "food"];
    assert Triggers(Service) == ["cashier", "service"];
    assert Triggers(Improvements) == ["improvements"];
  }

  lemma RemarksOfAll(keywords: seq<string>)
    ensures Remarks(AllConcerns, keywords) ==
      Part(Raised(Delay, keywords), Delay)
      + (Part(Raised(Food, keywords), Food)
      + (Part(Raised(Service, keywords), Service)
      + Part(Raised(Improvements, keywords), Improvements)))
  {
    var p4 := Part(Raised(Improvements, keywords), Improvements);
    RemarksCons(Improvements, [], keywords);
    assert p4 + "" == p4;
    assert [Improvements] + [] == [Improvements];
    RemarksCons(Service, [Improvements], keywords);
    assert [Service] + [Improvements] == [Service, Improvements];
    RemarksCons(Food, [Service, Improvements], keywords);
    assert [Food] + [Service, Improvements] == [Food, Service, Improvements];
    RemarksCons(Delay, [Food, Service, Improvements], keywords);
    assert [Delay] + [Food, Service, Improvements] == AllConcerns;
  }

  lemma RemarksCons(c: Concern, cs: seq<Concern>, keywords: seq<string>)
    ensures Remarks([c] + cs, keywords) == Part(Raised(c, keywords), c) + Remarks(cs, keywords)
  {
    assert ([c] + cs)[1..] == cs;
  }

  /** The remarks add nothing exactly when no concern among `cs` is raised. */
  lemma {:induction false} RemarksEmpty(cs: seq<Concern>, keywords: seq<string>)
    ensures Remarks(cs, keywords) == "" <==> forall i :: 0 <= i < |cs| ==> !Raised(cs[i], keywords)
    decreases |cs|
  {
    if |cs| > 0 {
      RemarksEmpty(cs[1..], keywords);
      RemarkNonEmpty(cs[0]);
      assert forall i :: 0 < i < |cs| ==> cs[i] == cs[1..][i - 1];
    }
  }

  /** The interpretation is the bare header exactly when none of the trigger words is a keyword. */
  lemma HeaderOnlyWhenNothingRaised(keywords: seq<string>)
    ensures InterpretTopic(keywords) == Header(keywords)
      <==> forall c: Concern :: !Raised(c, keywords)
  {
    var front, rest := Header(keywords), Remarks(AllConcerns, keywords);
    var none := !Raised(Delay, keywords) && !Raised(Food, keywords)
      && !Raised(Service, keywords) && !Raised(Improvements, keywords);
    RemarksEmpty(AllConcerns, keywords);
    assert rest == "" <==> none by {
      assert AllConcerns[0] == Delay && AllConcerns[1] == Food;
      assert AllConcerns[2] == Service && AllConcerns[3] == Improvements;
    }
    assert none <==> forall c: Concern :: !Raised(c, keywords) by {
      forall c: Concern | none ensures !Raised(c, keywords) {
        match c
        case Delay =>
        case Food =>
        case Service =>
        case Improvements =>
      }
    }
    assert InterpretTopic(keywords) == front + rest;
    assert front + rest == front <==> |rest| == 0;
  }

  /** A sentence found in `rest` is found after any prefix too. */
  lemma SliceAfter(front: string, rest: string, part: string, q: nat)
    requires SliceAt(rest, part, q)
    ensures SliceAt(front + rest, part, |front| + q)
  {
    assert (front + rest)[|front| + q..|front| + q + |part|] == rest[q..q + |part|];
  }

  /** A sentence found in `front` is still there with anything appended. */
  lemma SliceBefore(front: string, rest: string, part: string, q: nat)
    requires SliceAt(front, part, q)
    ensures SliceAt(front + rest, part, q)
  {
    assert (front + rest)[q..q + |part|] == front[q..q + |part|];
  }

  /** A raised concern's sentence always appears in the remarks. */
  lemma {:induction false} RaisedRemarkShown(cs: seq<Concern>, keywords: seq<string>, i: nat)
    requires i < |cs| && Raised(cs[i], keywords)
    ensures exists p: nat :: SliceAt(Remarks(cs, keywords), Remark(cs[i]), p)
    decreases |cs|
  {
    var head := Part(Raised(cs[0], keywords), cs[0]);
    var rest := Remarks(cs[1..], keywords);
    assert Remarks(cs, keywords) == head + rest;
    if i == 0 {
      assert (head + rest)[0..|head|] == head;
      assert SliceAt(head + rest, Remark(cs[0]), 0);
    } else {
      RaisedRemarkShown(cs[1..], keywords, i - 1);
      var q: nat :| SliceAt(rest, Remark(cs[1..][i - 1]), q);
      SliceAfter(head, rest, Remark(cs[i]), q);
    }
  }

  /** The header names every keyword, whatever follows it. */
  lemma HeaderNamesKeywords(keywords: seq<string>, tail: string, i: nat)
    requires i < |keywords|
    ensures exists p: nat :: SliceAt(Header(keywords) + tail, keywords[i], p)
  {
    var joined := Join(keywords, ", ");
    var rest := ". " + tail;
    var w := keywords[i];
    AppendAssoc(Lead + joined, ". ", tail);
    AppendAssoc(Lead, joined, rest);
    JoinShowsEveryKeyword(keywords, ", ", i);
    var q: nat :| SliceAt(joined, w, q);
    SliceBefore(joined, rest, w, q);
    SliceAfter(Lead, joined + rest, w, q);
    assert SliceAt(Header(keywords) + tail, w, |Lead| + q);
  }

  /** The interpretation names every keyword. */
  lemma InterpretationNamesKeywords(keywords: seq<string>, i: nat)
    requires i < |keywords|
    ensures exists p: nat :: SliceAt(InterpretTopic(keywords), keywords[i], p)
  {
    var rest := Remarks(AllConcerns, keywords);
    HeaderNamesKeywords(keywords, rest, i);
    var p: nat :| SliceAt(Header(keywords) + rest, keywords[i], p);
    assert SliceAt(InterpretTopic(keywords), keywords[i], p);
  }

  /** The interpretation carries the sentence of every raised concern. */
  lemma InterpretationRemarks(keywords: seq<string>, c: Concern)
    requires Raised(c, keywords)
    ensures exists p: nat :: SliceAt(InterpretTopic(keywords), Remark(c), p)
  {
    var r, front := InterpretTopic(keywords), Header(keywords);
    var rest := Remarks(AllConcerns, keywords);
    var m := Remark(c);
    assert r == front + rest;
    var k := Position(c);
    RaisedRemarkShown(AllConcerns, keywords, k);
    var q: nat :| SliceAt(rest, m, q);
    SliceAfter(front, rest, m, q);
    assert SliceAt(r, m, |front| + q);
  }
}

=== FILE: mismatch.dfy ===
/** "Suspected Rating-Sentiment Mismatches": reviews whose text reads negative although
    the star rating is high. */
module Mismatch {
  import opened Collections
  import opened Reviews

  const Yes: string := "Yes"
  const No: string := "No"

  /** The `Mismatch` column value of one review. */
  function MismatchFlag(x: Review): (f: string)
    ensures f == Yes || f == No
    ensures f == Yes <==> x.compound < 0.0 && x.rating >= 4.0
  {
    if x.compound < 0.0 && x.rating >= 4.0 then Yes else No
  }

  /** `filtered[filtered['Mismatch'] == 'Yes']`. */
  function Flagged(rows: seq<Review>): (r: seq<Review>)
    ensures forall x :: x in r <==> x in rows && MismatchFlag(x) == Yes
    ensures forall x {:trigger multiset(r)[x]} :: multiset(r)[x] == if MismatchFlag(x) == Yes then multiset(rows)[x] else 0
    ensures Subseq(r, rows)
    decreases |rows|
  {
    if |rows| == 0 then []
    else
      assert rows == [rows[0]] + rows[1..];
      if MismatchFlag(rows[0]) == Yes then [rows[0]] + Flagged(rows[1..])
      else Flagged(rows[1..])
  }

  /** `mismatched_reviews`: the first ten flagged reviews, in table order. */
  function MismatchedReviews(rows: seq<Review>): (r: seq<Review>)
    ensures |r| == if 10 < |Flagged(rows)| then 10 else |Flagged(rows)|
    ensures forall x :: x in r ==> x in rows && x.compound < 0.0 && x.rating >= 4.0
    ensures Subseq(r, rows)
    ensures exists n :: 0 <= n <= |rows| && r == Flagged(rows[..n])
    ensures |r| < 10 ==> forall x :: x in rows && x.compound < 0.0 && x.rating >= 4.0 ==> x in r
  {
    var all := Flagged(rows);
    var r := Take(all, 10);
    PrefixSubseq(all, |r|);
    SubseqTrans(r, all, rows);
    assert forall x :: x in r ==> x in all by {
      SubseqMultiset(r, all);
    }
    FirstFlagged(rows, 10);
    r
  }

  /** Cutting the flagged rows after `k` is flagging a prefix of the table. */
  lemma {:induction false} FirstFlagged(rows: seq<Review>, k: nat)
    ensures exists n :: 0 <= n <= |rows| && Take(Flagged(rows), k) == Flagged(rows[..n])
    decreases |rows|
  {
    if |rows| == 0 || k == 0 {
      assert Take(Flagged(rows), k) == Flagged(rows[..0]);
    } else {
      var k' := if MismatchFlag(rows[0]) == Yes then k - 1 else k;
      FirstFlagged(rows[1..], k');
      var n' :| 0 <= n' <= |rows[1..]| && Take(Flagged(rows[1..]), k') == Flagged(rows[1..][..n']);
      FirstFlaggedStep(rows, k, n');
    }
  }

  /** One row more: if cutting the tail's flagged rows is flagging the tail's first `n`
      rows, cutting the table's is flagging its first `n + 1`. */
  lemma FirstFlaggedStep(rows: seq<Review>, k: nat, n: nat)
    requires 0 < k && n < |rows|
    requires Take(Flagged(rows[1..]), if MismatchFlag(rows[0]) == Yes then k - 1 else k) == Flagged(rows[1..][..n])
    ensures Take(Flagged(rows), k) == Flagged(rows[..n + 1])
  {
    var head := if MismatchFlag(rows[0]) == Yes then [rows[0]] else [];
    FlaggedPrefixCons(rows, n);
    FlaggedCons(rows);
    TakeAfterHead(head, Flagged(rows[1..]), k);
  }

  /** Flagging the first `n + 1` rows flags the first row, then the tail's first `n`. */
  lemma FlaggedPrefixCons(rows: seq<Review>, n: nat)
    requires n < |rows|
    ensures Flagged(rows[..n + 1]) == (if MismatchFlag(rows[0]) == Yes then [rows[0]] else []) + Flagged(rows[1..][..n])
  {
    var pre := rows[..n + 1];
    PrefixTail(rows, n);
    assert pre[0] == rows[0] && pre[1..] == rows[1..][..n];
    FlaggedCons(pre);
  }

  /** Flagging a non-empty table flags its first row, then the rest. */
  lemma FlaggedCons(rows: seq<Review>)
    requires |rows| > 0
    ensures Flagged(rows) == (if MismatchFlag(rows[0]) == Yes then [rows[0]] else []) + Flagged(rows[1..])
  {
  }
}

=== FILE: ordering.dfy ===
/** Sorting as the dashboard uses it: `sort_values`/`argsort` on a numeric column,
    ascending or descending, followed by `head(k)`; and Python's `sorted` on
    strings. Ties are left in whatever order the sort produces, so contracts
    promise a sorted permutation and a top-k selection, never a tie-break. */
module Ordering {
  import opened Collections

  /** `a` may precede `b` in an ascending (or, with `desc`, descending) order. */
  predicate InOrder(a: real, b: real, desc: bool) {
    if desc then a >= b else a <= b
  }

  predicate SortedBy<T>(s: seq<T>, key: T -> real, desc: bool) {
    forall i, j :: 0 <= i < j < |s| ==> InOrder(key(s[i]), key(s[j]), desc)
  }

  function InsertBy<T(==)>(x: T, s: seq<T>, key: T -> real, desc: bool): (r: seq<T>)
    requires SortedBy(s, key, desc)
    ensures multiset(r) == multiset(s) + multiset{x}
    ensures SortedBy(r, key, desc)
    decreases |s|
  {
    if |s| == 0 then [x]
    else if InOrder(key(x), key(s[0]), desc) then
      assert s == [s[0]] + s[1..];
      [x] + s
    else
      var rest := InsertBy(x, s[1..], key, desc);
      assert s == [s[0]] + s[1..];
      InsertAfterHead(x, s, rest, key, desc);
      [s[0]] + rest
  }

  /** Inserting past the head keeps the head first. */
  lemma InsertAfterHead<T>(x: T, s: seq<T>, rest: seq<T>, key: T -> real, desc: bool)
    requires |s| > 0 && SortedBy(s, key, desc) && SortedBy(rest, key, desc)
    requires !InOrder(key(x), key(s[0]), desc)
    requires multiset(rest) == multiset(s[1..]) + multiset{x}
    ensures SortedBy([s[0]] + rest, key, desc)
  {
    forall j | 0 <= j < |rest| ensures InOrder(key(s[0]), key(rest[j]), desc) {
      assert rest[j] in multiset(rest);
      if rest[j] != x {
        assert rest[j] in s[1..];
      }
    }
  }

  /** `sort_values(by=key, ascending=!desc)`: a permutation of `s`, sorted by `key`. */
  function SortBy<T(==)>(s: seq<T>, key: T -> real, desc: bool): (r: seq<T>)
    ensures multiset(r) == multiset(s)
    ensures SortedBy(r, key, desc)
    decreases |s|
  {
    if |s| == 0 then []
    else
      assert s == [s[0]] + s[1..];
      InsertBy(s[0], SortBy(s[1..], key, desc), key, desc)
  }

  lemma TakeOfSorted<T>(t: seq<T>, k: nat, key: T -> real, desc: bool)
    requires SortedBy(t, key, desc)
    ensures forall x, y :: x in Take(t, k) && y in multiset(t) - multiset(Take(t, k)) ==>
      InOrder(key(x), key(y), desc)
  {
    if k < |t| {
      assert t == t[..k] + t[k..];
      assert multiset(t) == multiset(t[..k]) + multiset(t[k..]);
      forall x, y | x in t[..k] && y in multiset(t) - multiset(t[..k])
        ensures InOrder(key(x), key(y), desc)
      {
        assert y in multiset(t[k..]);
        var i :| 0 <= i < k && t[i] == x;
        var j :| 0 <= j < |t[k..]| && t[k..][j] == y;
        assert t[k + j] == y;
      }
    }
  }

  /** `sort_values(...).head(k)`: the best `k` elements by `key`, sorted; every element
      left out is no better than any element kept. */
  function TopBy<T(==)>(s: seq<T>, k: nat, key: T -> real, desc: bool): (r: seq<T>)
    ensures |r| == if k < |s| then k else |s|
    ensures multiset(r) <= multiset(s)
    ensures SortedBy(r, key, desc)
    ensures forall x, y :: x in r && y in multiset(s) - multiset(r) ==> InOrder(key(x), key(y), desc)
  {
    var t := SortBy(s, key, desc);
    TakeOfSorted(t, k, key, desc);
    PrefixSubseq(t, |Take(t, k)|);
    SubseqMultiset(Take(t, k), t);
    Take(t, k)
  }

  /** A subsequence of a sorted sequence is sorted. */
  lemma {:induction false} SubseqSortedBy<T>(a: seq<T>, b: seq<T>, key: T -> real, desc: bool)
    requires Subseq(a, b) && SortedBy(b, key, desc)
    ensures SortedBy(a, key, desc)
    decreases |b|
  {
    if |a| == 0 {
      return;
    }
    if a[0] == b[0] && Subseq(a[1..], b[1..]) {
      SubseqSortedBy(a[1..], b[1..], key, desc);
      SubseqMultiset(a[1..], b[1..]);
      forall j | 0 < j < |a| ensures InOrder(key(a[0]), key(a[j]), desc) {
        assert a[j] == a[1..][j - 1];
        assert a[j] in multiset(b[1..]);
        var q :| 0 <= q < |b[1..]| && b[1..][q] == a[j];
        assert b[q + 1] == a[j];
      }
    } else {
      SubseqSortedBy(a, b[1..], key, desc);
    }
  }

  // ---------------------------------------------------------------------------
  // Strings, compared as Python compares `str`: code point by code point, a proper
  // prefix sorting first.

  predicate StrLe(a: string, b: string)
    decreases |a|
  {
    if |a| == 0 then true
    else if |b| == 0 then false
    else if a[0] != b[0] then a[0] < b[0]
    else StrLe(a[1..], b[1..])
  }

  lemma {:induction false} StrLeTotal(a: string, b: string)
    ensures StrLe(a, b) || StrLe(b, a)
    decreases |a|
  {
    if |a| > 0 && |b| > 0 && a[0] == b[0] {
      StrLeTotal(a[1..], b[1..]);
    }
  }

  lemma {:induction false} StrLeTrans(a: string, b: string, c: string)
    requires StrLe(a, b) && StrLe(b, c)
    ensures StrLe(a, c)
    decreases |a|
  {
    if |a| > 0 && a[0] == b[0] && b[0] == c[0] {
      StrLeTrans(a[1..], b[1..], c[1..]);
    }
  }

  lemma {:induction false} StrLeAntisym(a: string, b: string)
    requires StrLe(a, b) && StrLe(b, a)
    ensures a == b
    decreases |a|
  {
    if |a| > 0 {
      StrLeAntisym(a[1..], b[1..]);
      assert a == [a[0]] + a[1..];
      assert b == [b[0]] + b[1..];
    }
  }

  lemma {:induction false} StrLeRefl(a: string)
    ensures StrLe(a, a)
    decreases |a|
  {
    if |a| > 0 {
      StrLeRefl(a[1..]);
    }
  }

  predicate StrSorted(s: seq<string>) {
    forall i, j :: 0 <= i < j < |s| ==> StrLe(s[i], s[j])
  }

  function InsertStr(x: string, s: seq<string>): (r: seq<string>)
    requires StrSorted(s)
    ensures multiset(r) == multiset(s) + multiset{x}
    ensures StrSorted(r)
    decreases |s|
  {
    if |s| == 0 then [x]
    else if StrLe(x, s[0]) then
      InsertStrBeforeHead(x, s);
      [x] + s
    else
      var rest := InsertStr(x, s[1..]);
      assert s == [s[0]] + s[1..];
      InsertStrAfterHead(x, s, rest);
      [s[0]] + rest
  }

  lemma InsertStrBeforeHead(x: string, s: seq<string>)
    requires |s| > 0 && StrSorted(s) && StrLe(x, s[0])
    ensures StrSorted([x] + s)
  {
    var r := [x] + s;
    forall i, j | 0 <= i < j < |r| ensures StrLe(r[i], r[j]) {
      if i == 0 {
        assert r[j] == s[j - 1];
        if j > 1 {
          StrLeTrans(x, s[0], s[j - 1]);
        }
      } else {
        assert r[i] == s[i - 1] && r[j] == s[j - 1];
      }
    }
  }

  lemma InsertStrAfterHead(x: string, s: seq<string>, rest: seq<string>)
    requires |s| > 0 && StrSorted(s) && !StrLe(x, s[0])
    requires multiset(rest) == multiset(s[1..]) + multiset{x}
    requires StrSorted(rest)
    ensures StrSorted([s[0]] + rest)
  {
    StrLeTotal(x, s[0]);
    forall y | y in rest ensures StrLe(s[0], y) {
      assert y in multiset(rest);
    }
    var r := [s[0]] + rest;
    forall i, j | 0 <= i < j < |r| ensures StrLe(r[i], r[j]) {
      if i == 0 {
        assert r[j] == rest[j - 1];
        assert rest[j - 1] in rest;
      } else {
        assert r[i] == rest[i - 1] && r[j] == rest[j - 1];
      }
    }
  }

  /** Python's `sorted` on a list of strings. */
  function SortStrings(s: seq<string>): (r: seq<string>)
    ensures multiset(r) == multiset(s)
    ensures StrSorted(r)
    decreases |s|
  {
    if |s| == 0 then []
    else
      assert s == [s[0]] + s[1..];
      InsertStr(s[0], SortStrings(s[1..]))
  }

  /** `sorted(values.unique())`: every value once, in strictly increasing order. */
  function SortedUnique(s: seq<string>): (r: seq<string>)
    ensures StrictlySorted(r)
    ensures forall x :: x in r <==> x in s
  {
    var u := Unique(s);
    var r := SortStrings(u);
    DistinctCounts(u);
    CountsDistinct(r);
    assert forall x :: x in r <==> x in multiset(u);
    r
  }

  predicate StrictlySorted(s: seq<string>) {
    forall i, j :: 0 <= i < j < |s| ==> StrLe(s[i], s[j]) && s[i] != s[j]
  }

  /** Two strictly sorted lists with the same elements are the same list: the sorted
      option list depends only on which values occur, not on where they occur. */
  lemma {:induction false} StrictlySortedUnique(a: seq<string>, b: seq<string>)
    requires StrictlySorted(a) && StrictlySorted(b)
    requires forall x :: x in a <==> x in b
    ensures a == b
    decreases |a|
  {
    assert |a| == 0 <==> |b| == 0 by {
      if |a| > 0 {
        assert a[0] in b;
      }
      if |b| > 0 {
        assert b[0] in a;
      }
    }
    if |a| > 0 {
      HeadIsLeast(a, b[0]);
      HeadIsLeast(b, a[0]);
      StrLeAntisym(a[0], b[0]);
      forall x ensures x in a[1..] <==> x in b[1..] {
        TailMembers(a, x);
        TailMembers(b, x);
      }
      StrictlySortedUnique(a[1..], b[1..]);
      assert a == [a[0]] + a[1..];
      assert b == [b[0]] + b[1..];
    }
  }

  lemma HeadIsLeast(s: seq<string>, x: string)
    requires StrictlySorted(s) && x in s
    ensures StrLe(s[0], x)
  {
    var m :| 0 <= m < |s| && s[m] == x;
    if m == 0 {
      StrLeRefl(x);
    }
  }

  lemma TailMembers(s: seq<string>, x: string)
    requires StrictlySorted(s) && |s| > 0
    ensures x in s[1..] <==> x in s && x != s[0]
  {
    assert s == [s[0]] + s[1..];
    if x in s[1..] {
      var m :| 0 <= m < |s[1..]| && s[1..][m] == x;
      assert s[m + 1] == x;
    }
  }
}

=== FILE: reviews.dfy ===
/** The review table every page of the dashboard works on, one `Review` per CSV row,
    and the row-level selections pandas performs on it: boolean-mask filtering and
    the rows of one `groupby` group. */
module Reviews {
  import opened Collections

  datatype Review = Review(
    region: string,
    city: string,
    placeType: string,
    placeName: string,
    rating: real,
    sentiment: string,  // "Sentiment Label": "positive", "neutral" or "negative"
    compound: real,     // VADER compound score, computed upstream
    topic: int,         // LDA topic assigned upstream (negative-review table only)
    text: string        // "Review Text"
  )

  /** The categorical columns the dashboard filters and groups by. */
  datatype Column = Region | City | PlaceType | PlaceName | Sentiment

  const NegativeLabel: string := "negative"

  /** The grouping key of the place-level tables: Region, City, Place Type, Place Name. */
  const PlaceKey: seq<Column> := [Region, City, PlaceType, PlaceName]

  function Field(r: Review, c: Column): string {
    match c
    case Region => r.region
    case City => r.city
    case PlaceType => r.placeType
    case PlaceName => r.placeName
    case Sentiment => r.sentiment
  }

  /** The tuple of `r`'s values in the columns `cols`. */
  function KeyOf(r: Review, cols: seq<Column>): (k: seq<string>)
    ensures |k| == |cols|
    ensures forall i :: 0 <= i < |cols| ==> k[i] == Field(r, cols[i])
  {
    seq(|cols|, i requires 0 <= i < |cols| => Field(r, cols[i]))
  }

  lemma KeyOfOne(r: Review, c: Column)
    ensures KeyOf(r, [c]) == [Field(r, c)]
  {
  }

  lemma KeyOfTwo(r: Review, c: Column, d: Column)
    ensures KeyOf(r, [c, d]) == [Field(r, c), Field(r, d)]
  {
  }

  /** The column `c` of the table, row by row. */
  function Values(rows: seq<Review>, c: Column): (vs: seq<string>)
    ensures |vs| == |rows|
    ensures forall i :: 0 <= i < |rows| ==> vs[i] == Field(rows[i], c)
    decreases |rows|
  {
    if |rows| == 0 then [] else [Field(rows[0], c)] + Values(rows[1..], c)
  }

  /** The grouping keys of the table, row by row. */
  function KeyColumn(rows: seq<Review>, cols: seq<Column>): (ks: seq<seq<string>>)
    ensures |ks| == |rows|
    ensures forall i :: 0 <= i < |rows| ==> ks[i] == KeyOf(rows[i], cols)
    decreases |rows|
  {
    if |rows| == 0 then [] else [KeyOf(rows[0], cols)] + KeyColumn(rows[1..], cols)
  }

  /** The `Rating` column entry of a review. */
  function ReviewRating(x: Review): real { x.rating }

  /** `rows[rows[c].isin(sel)]`; with a one-element `sel`, `rows[rows[c] == v]`. */
  function Where(rows: seq<Review>, c: Column, sel: seq<string>): (r: seq<Review>)
    ensures forall x :: x in r <==> x in rows && Field(x, c) in sel
    ensures forall x {:trigger multiset(r)[x]} :: multiset(r)[x] == if Field(x, c) in sel then multiset(rows)[x] else 0
    ensures Subseq(r, rows)
    decreases |rows|
  {
    if |rows| == 0 then []
    else
      assert rows == [rows[0]] + rows[1..];
      if Field(rows[0], c) in sel then [rows[0]] + Where(rows[1..], c, sel)
      else Where(rows[1..], c, sel)
  }

  /** The rows of the `groupby(cols)` group whose key is `k`. */
  function GroupRows(rows: seq<Review>, cols: seq<Column>, k: seq<string>): (r: seq<Review>)
    ensures forall x :: x in r <==> x in rows && KeyOf(x, cols) == k
    ensures Subseq(r, rows)
    decreases |rows|
  {
    if |rows| == 0 then []
    else if KeyOf(rows[0], cols) == k then [rows[0]] + GroupRows(rows[1..], cols, k)
    else GroupRows(rows[1..], cols, k)
  }

  /** When every row's value in `c` is among `opts`, so is every value of the column. */
  lemma ValuesCovered(rows: seq<Review>, c: Column, opts: seq<string>)
    requires forall x :: x in rows ==> Field(x, c) in opts
    ensures forall v :: v in Values(rows, c) ==> v in opts
  {
    forall v | v in Values(rows, c) ensures v in opts {
      var k :| 0 <= k < |rows| && Values(rows, c)[k] == v;
      assert rows[k] in rows;
    }
  }

  /** A mask filter keeps as many rows as the value occurs in the column. */
  lemma {:induction false} WhereCount(rows: seq<Review>, c: Column, v: string)
    ensures |Where(rows, c, [v])| == multiset(Values(rows, c))[v]
    decreases |rows|
  {
    if |rows| > 0 {
      WhereCount(rows[1..], c, v);
      assert Values(rows, c) == [Field(rows[0], c)] + Values(rows[1..], c);
    }
  }

  /** A group has as many rows as its key occurs in the key column. */
  lemma {:induction false} GroupCount(rows: seq<Review>, cols: seq<Column>, k: seq<string>)
    ensures |GroupRows(rows, cols, k)| == multiset(KeyColumn(rows, cols))[k]
    decreases |rows|
  {
    if |rows| > 0 {
      GroupCount(rows[1..], cols, k);
      assert KeyColumn(rows, cols) == [KeyOf(rows[0], cols)] + KeyColumn(rows[1..], cols);
    }
  }

  /** Filtering rows that all pass the filter changes nothing. */
  lemma {:induction false} WhereAll(rows: seq<Review>, c: Column, sel: seq<string>)
    requires forall x :: x in rows ==> Field(x, c) in sel
    ensures Where(rows, c, sel) == rows
    decreases |rows|
  {
    if |rows| > 0 {
      WhereAll(rows[1..], c, sel);
    }
  }
}

=== FILE: stats.dfy ===
/** Arithmetic over a column of ratings, in exact rational arithmetic: pandas computes
    the same quantities in binary floating point. */
module Stats {

  function Sum(xs: seq<real>): real
    decreases |xs|
  {
    if |xs| == 0 then 0.0 else xs[0] + Sum(xs[1..])
  }

  /** The arithmetic mean, what `groupby(...).mean()` reports for a group. */
  function Mean(xs: seq<real>): real
    requires |xs| > 0
  {
    Sum(xs) / (|xs| as real)
  }

  function Min(xs: seq<real>): (m: real)
    requires |xs| > 0
    ensures m in xs
    ensures forall i :: 0 <= i < |xs| ==> m <= xs[i]
    decreases |xs|
  {
    if |xs| == 1 then xs[0]
    else
      var m := Min(xs[1..]);
      assert forall i :: 1 <= i < |xs| ==> xs[i] == xs[1..][i - 1];
      if xs[0] <= m then xs[0] else m
  }

  function Max(xs: seq<real>): (m: real)
    requires |xs| > 0
    ensures m in xs
    ensures forall i :: 0 <= i < |xs| ==> xs[i] <= m
    decreases |xs|
  {
    if |xs| == 1 then xs[0]
    else
      var m := Max(xs[1..]);
      assert forall i :: 1 <= i < |xs| ==> xs[i] == xs[1..][i - 1];
      if m <= xs[0] then xs[0] else m
  }

  lemma {:induction false} SumBetween(xs: seq<real>, lo: real, hi: real)
    requires forall i :: 0 <= i < |xs| ==> lo <= xs[i] <= hi
    ensures (|xs| as real) * lo <= Sum(xs) <= (|xs| as real) * hi
    decreases |xs|
  {
    if |xs| > 0 {
      SumBetween(xs[1..], lo, hi);
    }
  }

  lemma QuotientBetween(s: real, n: real, lo: real, hi: real)
    requires n > 0.0 && n * lo <= s <= n * hi
    ensures lo <= s / n <= hi
  {
    assert (s / n) * n == s;
  }

  /** A mean respects every bound that all of its values respect. */
  lemma MeanBetween(xs: seq<real>, lo: real, hi: real)
    requires |xs| > 0
    requires forall i :: 0 <= i < |xs| ==> lo <= xs[i] <= hi
    ensures lo <= Mean(xs) <= hi
  {
    SumBetween(xs, lo, hi);
    QuotientBetween(Sum(xs), |xs| as real, lo, hi);
  }

  /** A mean lies between the smallest and the largest value averaged. */
  lemma MeanWithinRange(xs: seq<real>)
    requires |xs| > 0
    ensures Min(xs) <= Mean(xs) <= Max(xs)
  {
    MeanBetween(xs, Min(xs), Max(xs));
  }
}

=== FILE: topics.dfy ===
/** The topic pages: the selectable LDA topics, the ten heaviest words of a topic (as
    plain keywords and as (word, weight) pairs), the word-cloud frequencies, and the
    number of reviews per topic. The topic-word weights (`components_`) and the
    vocabulary (`get_feature_names_out()`) are inputs. */
module Topics {
  import opened Collections
  import opened Ordering
  import opened Reviews

  /** `list(range(lda_model.n_components))`. */
  function TopicNumbers(n: nat): (r: seq<int>)
    ensures |r| == n
    ensures forall t :: t in r <==> 0 <= t < n
    ensures forall i, j :: 0 <= i < j < |r| ==> r[i] < r[j]
  {
    var r := seq(n, i requires 0 <= i < n => i);
    assert forall t :: 0 <= t < n ==> t in r by {
      forall t | 0 <= t < n ensures t in r {
        assert r[t] == t;
      }
    }
    assert forall t :: t in r ==> 0 <= t < n by {
      forall t | t in r ensures 0 <= t < n {
        var k :| 0 <= k < |r| && r[k] == t;
      }
    }
    r
  }

  // ---------------------------------------------------------------------------
  // Top words of a topic

  /** A vocabulary index with its weight in the selected topic. */
  datatype Scored = Scored(index: nat, weight: real)

  function WeightOf(p: Scored): real { p.weight }

  function IndexOf(p: Scored): nat { p.index }

  /** Every index of the weight row, paired with its weight. */
  function Enumerate(w: seq<real>): (e: seq<Scored>)
    ensures |e| == |w|
    ensures forall i :: 0 <= i < |w| ==> e[i] == Scored(i, w[i])
  {
    seq(|w|, i requires 0 <= i < |w| => Scored(i, w[i]))
  }

  /** The `if i < len(feature_names)` guard of the list comprehension. */
  function InVocabulary(ps: seq<Scored>, vocab: nat): (r: seq<Scored>)
    ensures |r| <= |ps|
    ensures forall p :: p in r <==> p in ps && p.index < vocab
    decreases |ps|
  {
    if |ps| == 0 then []
    else if ps[0].index < vocab then [ps[0]] + InVocabulary(ps[1..], vocab)
    else InVocabulary(ps[1..], vocab)
  }

  /** Dropping the out-of-vocabulary indices keeps the order of the rest. */
  lemma {:induction false} InVocabularyInOrder(ps: seq<Scored>, vocab: nat)
    ensures Subseq(InVocabulary(ps, vocab), ps)
    decreases |ps|
  {
    if |ps| > 0 {
      InVocabularyInOrder(ps[1..], vocab);
    }
  }

  lemma {:induction false} InVocabularyAll(ps: seq<Scored>, vocab: nat)
    requires forall p :: p in ps ==> p.index < vocab
    ensures InVocabulary(ps, vocab) == ps
    decreases |ps|
  {
    if |ps| > 0 {
      InVocabularyAll(ps[1..], vocab);
    }
  }

  /** `w.argsort()[::-1][:10]`: the ten heaviest indices, heaviest first. */
  function Heaviest(w: seq<real>): (t: seq<Scored>)
    ensures |t| == if 10 < |w| then 10 else |w|
    ensures forall p :: p in t ==> p.index < |w| && p.weight == w[p.index]
    ensures KeysDistinct(t, IndexOf)
    ensures forall a, b :: 0 <= a < b < |t| ==> t[a].weight >= t[b].weight
    ensures forall j, p :: 0 <= j < |w| && Scored(j, w[j]) !in t && p in t ==> w[j] <= p.weight
  {
    var e := Enumerate(w);
    var t := TopBy(e, 10, WeightOf, true);
    EnumerateKeysDistinct(w);
    KeysDistinctSub(e, t, IndexOf);
    FromEnumerate(w, t);
    HeaviestFirst(t);
    HeaviestLeftOut(w, t);
    t
  }

  lemma FromEnumerate(w: seq<real>, t: seq<Scored>)
    requires multiset(t) <= multiset(Enumerate(w))
    ensures forall p :: p in t ==> p.index < |w| && p.weight == w[p.index]
  {
    var e := Enumerate(w);
    forall p | p in t ensures p.index < |w| && p.weight == w[p.index] {
      assert p in multiset(e);
      var i :| 0 <= i < |e| && e[i] == p;
    }
  }

  lemma HeaviestLeftOut(w: seq<real>, t: seq<Scored>)
    requires forall x, y :: x in t && y in multiset(Enumerate(w)) - multiset(t) ==> InOrder(WeightOf(x), WeightOf(y), true)
    ensures forall j, p :: 0 <= j < |w| && Scored(j, w[j]) !in t && p in t ==> w[j] <= p.weight
  {
    var e := Enumerate(w);
    forall j, p | 0 <= j < |w| && Scored(j, w[j]) !in t && p in t ensures w[j] <= p.weight {
      assert e[j] in multiset(e);
      assert e[j] in multiset(e) - multiset(t);
      assert InOrder(WeightOf(p), WeightOf(e[j]), true);
    }
  }

  /** The ten heaviest indices, minus those past the vocabulary. */
  function TopScored(w: seq<real>, vocab: nat): (r: seq<Scored>)
    ensures |r| <= 10
    ensures forall p :: p in r ==> p.index < |w| && p.index < vocab && p.weight == w[p.index]
    ensures KeysDistinct(r, IndexOf)
    ensures forall a, b :: 0 <= a < b < |r| ==> r[a].weight >= r[b].weight
    ensures forall j, p :: 0 <= j < |w| && j < vocab && j !in KeyList(r, IndexOf) && p in r ==> w[j] <= p.weight
    ensures |w| <= vocab ==> |r| == if 10 < |w| then 10 else |w|
    ensures forall p :: p in Heaviest(w) && p.index < vocab ==> p in r
  {
    var t := Heaviest(w);
    var r := InVocabulary(t, vocab);
    VocabularyKeepsOrder(t, r, vocab);
    VocabularyLeftOut(w, vocab, t, r);
    assert |w| <= vocab ==> r == t by {
      if |w| <= vocab {
        InVocabularyAll(t, vocab);
      }
    }
    r
  }

  lemma VocabularyKeepsOrder(t: seq<Scored>, r: seq<Scored>, vocab: nat)
    requires r == InVocabulary(t, vocab)
    requires KeysDistinct(t, IndexOf)
    requires forall a, b :: 0 <= a < b < |t| ==> t[a].weight >= t[b].weight
    ensures KeysDistinct(r, IndexOf)
    ensures forall a, b :: 0 <= a < b < |r| ==> r[a].weight >= r[b].weight
  {
    InVocabularyInOrder(t, vocab);
    SubseqMultiset(r, t);
    KeysDistinctSub(t, r, IndexOf);
    forall a, b | 0 <= a < b < |t| ensures InOrder(WeightOf(t[a]), WeightOf(t[b]), true) {
    }
    SubseqSortedBy(r, t, WeightOf, true);
    HeaviestFirst(r);
  }

  lemma VocabularyLeftOut(w: seq<real>, vocab: nat, t: seq<Scored>, r: seq<Scored>)
    requires r == InVocabulary(t, vocab)
    requires forall j, p :: 0 <= j < |w| && Scored(j, w[j]) !in t && p in t ==> w[j] <= p.weight
    ensures forall j, p :: 0 <= j < |w| && j < vocab && j !in KeyList(r, IndexOf) && p in r ==> w[j] <= p.weight
  {
    forall j, p | 0 <= j < |w| && j < vocab && j !in KeyList(r, IndexOf) && p in r ensures w[j] <= p.weight {
      assert Scored(j, w[j]) !in r by {
        forall k | 0 <= k < |r| ensures r[k] != Scored(j, w[j]) {
          assert KeyList(r, IndexOf)[k] == r[k].index;
        }
      }
    }
  }

  lemma EnumerateKeysDistinct(w: seq<real>)
    ensures KeysDistinct(Enumerate(w), IndexOf)
  {
    var e := Enumerate(w);
    forall i, j | 0 <= i < j < |e| ensures IndexOf(e[i]) != IndexOf(e[j]) {
    }
  }

  lemma HeaviestFirst(r: seq<Scored>)
    requires SortedBy(r, WeightOf, true)
    ensures forall a, b :: 0 <= a < b < |r| ==> r[a].weight >= r[b].weight
  {
    forall a, b | 0 <= a < b < |r| ensures r[a].weight >= r[b].weight {
      assert InOrder(WeightOf(r[a]), WeightOf(r[b]), true);
    }
  }

  /** The facts `TopScored` promises, position by position. */
  lemma ScoredByPosition(w: seq<real>, vocab: nat, s: seq<Scored>)
    requires forall p :: p in s ==> p.index < |w| && p.index < vocab && p.weight == w[p.index]
    requires KeysDistinct(s, IndexOf)
    ensures forall k :: 0 <= k < |s| ==> s[k].index < |w| && s[k].index < vocab && s[k].weight == w[s[k].index]
    ensures forall a, b :: 0 <= a < b < |s| ==> s[a].index != s[b].index
  {
    assert forall k :: 0 <= k < |s| ==> s[k] in s;
    forall a, b | 0 <= a < b < |s| ensures s[a].index != s[b].index {
      assert IndexOf(s[a]) != IndexOf(s[b]);
    }
  }

  /** A (word, weight) row of the LDA page's `topic_df`. */
  datatype WordWeight = WordWeight(word: string, weight: real)

  function WordOf(p: WordWeight): string { p.word }

  /** `top_words` of the LDA page: the topic's heaviest words with their weights. */
  function TopWeightedWords(components: seq<seq<real>>, topic: nat, names: seq<string>): (r: seq<WordWeight>)
    requires topic < |components|
    ensures |r| <= 10
    ensures forall p :: p in r ==>
      exists i :: 0 <= i < |names| && i < |components[topic]| && p.word == names[i] && p.weight == components[topic][i]
    ensures forall a, b :: 0 <= a < b < |r| ==> r[a].weight >= r[b].weight
    ensures forall i, p :: 0 <= i < |names| && i < |components[topic]| && names[i] !in KeyList(r, WordOf) && p in r ==>
      components[topic][i] <= p.weight
    ensures Distinct(names) ==> Distinct(KeyList(r, WordOf))
    ensures |components[topic]| <= |names| ==>
      |r| == if 10 < |components[topic]| then 10 else |components[topic]|
  {
    var w := components[topic];
    var s := TopScored(w, |names|);
    ScoredByPosition(w, |names|, s);
    var r := PairsAt(names, s);
    WeightedWordsFacts(w, names, s, r);
    r
  }

  /** Every in-vocabulary index among the ten heaviest of the row shows up as its word
      with its weight, even when the vocabulary is shorter than the row. */
  lemma TopWeightedWordsKeepsHeaviest(components: seq<seq<real>>, topic: nat, names: seq<string>)
    requires topic < |components|
    ensures forall p :: p in Heaviest(components[topic]) && p.index < |names| ==>
      WordWeight(names[p.index], p.weight) in TopWeightedWords(components, topic, names)
  {
    var w := components[topic];
    var s := TopScored(w, |names|);
    ScoredByPosition(w, |names|, s);
    assert TopWeightedWords(components, topic, names) == PairsAt(names, s);
    PairsCover(names, Heaviest(w), s, PairsAt(names, s));
  }

  /** Every in-vocabulary entry of `t` that the scored positions keep shows up as its word
      paired with its weight. */
  lemma PairsCover(names: seq<string>, t: seq<Scored>, s: seq<Scored>, r: seq<WordWeight>)
    requires forall p :: p in t && p.index < |names| ==> p in s
    requires forall k :: 0 <= k < |s| ==> s[k].index < |names|
    requires |r| == |s|
    requires forall k :: 0 <= k < |s| ==> r[k] == WordWeight(names[s[k].index], s[k].weight)
    ensures forall p :: p in t && p.index < |names| ==> WordWeight(names[p.index], p.weight) in r
  {
    forall p | p in t && p.index < |names| ensures WordWeight(names[p.index], p.weight) in r {
      var k :| 0 <= k < |s| && s[k] == p;
      assert r[k] == WordWeight(names[p.index], p.weight);
    }
  }

  /** The (word, weight) pairs at the scored positions, in order. */
  function PairsAt(names: seq<string>, s: seq<Scored>): (r: seq<WordWeight>)
    requires forall k :: 0 <= k < |s| ==> s[k].index < |names|
    ensures |r| == |s|
    ensures forall k :: 0 <= k < |s| ==> r[k] == WordWeight(names[s[k].index], s[k].weight)
  {
    seq(|s|, k requires 0 <= k < |s| => WordWeight(names[s[k].index], s[k].weight))
  }

  lemma WeightedWordsFacts(w: seq<real>, names: seq<string>, s: seq<Scored>, r: seq<WordWeight>)
    requires forall k :: 0 <= k < |s| ==> s[k].index < |w| && s[k].index < |names| && s[k].weight == w[s[k].index]
    requires forall a, b :: 0 <= a < b < |s| ==> s[a].index != s[b].index
    requires forall a, b :: 0 <= a < b < |s| ==> s[a].weight >= s[b].weight
    requires forall j, p :: 0 <= j < |w| && j < |names| && j !in KeyList(s, IndexOf) && p in s ==> w[j] <= p.weight
    requires |r| == |s|
    requires forall k :: 0 <= k < |s| ==> r[k] == WordWeight(names[s[k].index], s[k].weight)
    ensures forall p :: p in r ==>
      exists i :: 0 <= i < |names| && i < |w| && p.word == names[i] && p.weight == w[i]
    ensures forall a, b :: 0 <= a < b < |r| ==> r[a].weight >= r[b].weight
    ensures forall i, p :: 0 <= i < |names| && i < |w| && names[i] !in KeyList(r, WordOf) && p in r ==> w[i] <= p.weight
    ensures Distinct(names) ==> Distinct(KeyList(r, WordOf))
  {
    WeightedWordsOrigin(w, names, s, r);
    WeightedWordsLeftOut(w, names, s, r);
    if Distinct(names) {
      WeightedWordsDistinct(names, s, r);
    }
  }

  lemma WeightedWordsOrigin(w: seq<real>, names: seq<string>, s: seq<Scored>, r: seq<WordWeight>)
    requires forall k :: 0 <= k < |s| ==> s[k].index < |w| && s[k].index < |names| && s[k].weight == w[s[k].index]
    requires |r| == |s|
    requires forall k :: 0 <= k < |s| ==> r[k] == WordWeight(names[s[k].index], s[k].weight)
    ensures forall p :: p in r ==>
      exists i :: 0 <= i < |names| && i < |w| && p.word == names[i] && p.weight == w[i]
  {
    forall p | p in r ensures exists i :: 0 <= i < |names| && i < |w| && p.word == names[i] && p.weight == w[i] {
      var k :| 0 <= k < |r| && r[k] == p;
      var i := s[k].index;
      assert p.word == names[i] && p.weight == w[i];
    }
  }

  lemma WeightedWordsLeftOut(w: seq<real>, names: seq<string>, s: seq<Scored>, r: seq<WordWeight>)
    requires forall k :: 0 <= k < |s| ==> s[k].index < |names|
    requires forall j, p :: 0 <= j < |w| && j < |names| && j !in KeyList(s, IndexOf) && p in s ==> w[j] <= p.weight
    requires |r| == |s|
    requires forall k :: 0 <= k < |s| ==> r[k] == WordWeight(names[s[k].index], s[k].weight)
    ensures forall i, p :: 0 <= i < |names| && i < |w| && names[i] !in KeyList(r, WordOf) && p in r ==> w[i] <= p.weight
  {
    forall i, p | 0 <= i < |names| && i < |w| && names[i] !in KeyList(r, WordOf) && p in r ensures w[i] <= p.weight {
      var k :| 0 <= k < |r| && r[k] == p;
      assert s[k] in s;
      assert i !in KeyList(s, IndexOf) by {
        forall m | 0 <= m < |s| ensures KeyList(s, IndexOf)[m] != i {
          assert KeyList(r, WordOf)[m] == names[s[m].index];
        }
      }
    }
  }

  lemma WeightedWordsDistinct(names: seq<string>, s: seq<Scored>, r: seq<WordWeight>)
    requires forall k :: 0 <= k < |s| ==> s[k].index < |names|
    requires forall a, b :: 0 <= a < b < |s| ==> s[a].index != s[b].index
    requires |r| == |s|
    requires forall k :: 0 <= k < |s| ==> r[k] == WordWeight(names[s[k].index], s[k].weight)
    requires Distinct(names)
    ensures Distinct(KeyList(r, WordOf))
  {
  }

  /** `top_words` of the Beyond Words page: the topic's heaviest words. */
  function TopKeywords(components: seq<seq<real>>, topic: nat, names: seq<string>): (r: seq<string>)
    requires topic < |components|
    ensures |r| <= 10
    ensures forall v :: v in r ==> v in names
    ensures |components[topic]| <= |names| ==>
      |r| == if 10 < |components[topic]| then 10 else |components[topic]|
  {
    var s := TopScored(components[topic], |names|);
    ScoredByPosition(components[topic], |names|, s);
    NamesAt(names, s)
  }

  /** The words at the scored positions, in order. */
  function NamesAt(names: seq<string>, s: seq<Scored>): (r: seq<string>)
    requires forall k :: 0 <= k < |s| ==> s[k].index < |names|
    ensures |r| == |s|
    ensures forall k :: 0 <= k < |s| ==> r[k] == names[s[k].index]
    ensures forall v :: v in r ==> v in names
  {
    var r := seq(|s|, k requires 0 <= k < |s| => names[s[k].index]);
    forall v | v in r ensures v in names {
      var k :| 0 <= k < |r| && r[k] == v;
    }
    r
  }

  /** Given the same weight matrix and vocabulary, both topic pages' expressions pick the
      same words for a topic, in the same order. */
  lemma SameWordsOnBothPages(components: seq<seq<real>>, topic: nat, names: seq<string>)
    requires topic < |components|
    ensures TopKeywords(components, topic, names) == KeyList(TopWeightedWords(components, topic, names), WordOf)
  {
    var a := TopKeywords(components, topic, names);
    var b := KeyList(TopWeightedWords(components, topic, names), WordOf);
    assert |a| == |b|;
    forall k | 0 <= k < |a| ensures a[k] == b[k] {
    }
  }

  /** `{word: weight for word, weight in top_words}`: a later pair overwrites an earlier
      one with the same word, so each word keeps the weight of its last pair. */
  function WordWeights(ps: seq<WordWeight>): (m: map<string, real>)
    ensures forall v :: v in m <==> v in KeyList(ps, WordOf)
    ensures forall k :: 0 <= k < |ps| && ps[k].word !in KeyList(ps[k + 1..], WordOf) ==>
      ps[k].word in m && m[ps[k].word] == ps[k].weight
    decreases |ps|
  {
    if |ps| == 0 then map[]
    else
      var m := WordWeights(ps[1..]);
      LastPairWins(ps, m);
      if ps[0].word in m then m else m[ps[0].word := ps[0].weight]
  }

  lemma LastPairWins(ps: seq<WordWeight>, m: map<string, real>)
    requires |ps| > 0
    requires forall v :: v in m <==> v in KeyList(ps[1..], WordOf)
    requires forall k :: 0 <= k < |ps[1..]| && ps[1..][k].word !in KeyList(ps[1..][k + 1..], WordOf) ==>
      ps[1..][k].word in m && m[ps[1..][k].word] == ps[1..][k].weight
    ensures var m' := if ps[0].word in m then m else m[ps[0].word := ps[0].weight];
      && (forall v :: v in m' <==> v in KeyList(ps, WordOf))
      && (forall k :: 0 <= k < |ps| && ps[k].word !in KeyList(ps[k + 1..], WordOf) ==>
            ps[k].word in m' && m'[ps[k].word] == ps[k].weight)
  {
    var m' := if ps[0].word in m then m else m[ps[0].word := ps[0].weight];
    assert KeyList(ps, WordOf) == [ps[0].word] + KeyList(ps[1..], WordOf);
    forall k | 0 <= k < |ps| && ps[k].word !in KeyList(ps[k + 1..], WordOf)
      ensures ps[k].word in m' && m'[ps[k].word] == ps[k].weight
    {
      if k > 0 {
        var j := k - 1;
        assert ps[k] == ps[1..][j];
        assert ps[k + 1..] == ps[1..][j + 1..];
        assert ps[k].word in m;
      }
    }
  }

  /** With distinct words nothing is overwritten: the map gives every pair's weight. */
  lemma WordWeightsKeepsAll(ps: seq<WordWeight>)
    requires Distinct(KeyList(ps, WordOf))
    ensures forall p :: p in ps ==> p.word in WordWeights(ps) && WordWeights(ps)[p.word] == p.weight
  {
    var m := WordWeights(ps);
    NoLaterRepeat(KeyList(ps, WordOf));
    forall p | p in ps ensures p.word in m && m[p.word] == p.weight {
      var k :| 0 <= k < |ps| && ps[k] == p;
      NotLaterWord(ps, k);
    }
  }

  lemma NotLaterWord(ps: seq<WordWeight>, k: nat)
    requires k < |ps| && KeyList(ps, WordOf)[k] !in KeyList(ps, WordOf)[k + 1..]
    ensures ps[k].word !in KeyList(ps[k + 1..], WordOf)
  {
    WordsSuffix(ps, k + 1);
  }

  lemma {:induction false} WordsSuffix(ps: seq<WordWeight>, n: nat)
    requires n <= |ps|
    ensures KeyList(ps[n..], WordOf) == KeyList(ps, WordOf)[n..]
    decreases n
  {
    if n > 0 {
      WordsSuffix(ps[1..], n - 1);
      assert ps[1..][n - 1..] == ps[n..];
      assert KeyList(ps, WordOf) == [ps[0].word] + KeyList(ps[1..], WordOf);
    }
  }

  /** `wordcloud_data` of the LDA page: each shown word's weight, when the vocabulary has no
      repeated word. */
  function WordCloudData(components: seq<seq<real>>, topic: nat, names: seq<string>): (m: map<string, real>)
    requires topic < |components|
    ensures forall v :: v in m <==> v in KeyList(TopWeightedWords(components, topic, names), WordOf)
    ensures Distinct(names) ==> forall p :: p in TopWeightedWords(components, topic, names) ==>
      p.word in m && m[p.word] == p.weight
  {
    var ps := TopWeightedWords(components, topic, names);
    if Distinct(names) then
      WordWeightsKeepsAll(ps);
      WordWeights(ps)
    else
      WordWeights(ps)
  }

  // ---------------------------------------------------------------------------
  // Reviews per topic

  /** A row of `topic_counts`. */
  datatype TopicCount = TopicCount(topic: int, count: nat)

  function TopicKey(t: int): real { t as real }

  /** The `Topic` column entry of a review. */
  function TopicOf(x: Review): int { x.topic }

  function CountTopic(c: TopicCount): int { c.topic }

  function CountOfTopic(c: TopicCount): nat { c.count }

  /** The reviews assigned topic `t`. */
  function TopicRows(rows: seq<Review>, t: int): (r: seq<Review>)
    ensures forall x :: x in r <==> x in rows && x.topic == t
    ensures |r| == multiset(KeyList(rows, TopicOf))[t]
    decreases |rows|
  {
    if |rows| == 0 then []
    else
      assert KeyList(rows, TopicOf) == [rows[0].topic] + KeyList(rows[1..], TopicOf);
      if rows[0].topic == t then [rows[0]] + TopicRows(rows[1..], t) else TopicRows(rows[1..], t)
  }

  /** The topics occurring in the table, each once, in ascending order. */
  function SortedTopics(rows: seq<Review>): (ts: seq<int>)
    ensures forall a, b :: 0 <= a < b < |ts| ==> ts[a] < ts[b]
    ensures forall t :: t in ts <==> t in KeyList(rows, TopicOf)
  {
    var u := Unique(KeyList(rows, TopicOf));
    var ts := SortBy(u, TopicKey, false);
    DistinctCounts(u);
    CountsDistinct(ts);
    AscendingTopics(ts);
    assert forall t :: t in ts <==> t in multiset(u);
    ts
  }

  lemma AscendingTopics(ts: seq<int>)
    requires SortedBy(ts, TopicKey, false) && Distinct(ts)
    ensures forall a, b :: 0 <= a < b < |ts| ==> ts[a] < ts[b]
  {
    forall a, b | 0 <= a < b < |ts| ensures ts[a] < ts[b] {
      assert InOrder(TopicKey(ts[a]), TopicKey(ts[b]), false);
    }
  }

  /** `filtered_data['Topic'].value_counts().sort_index()`. */
  function TopicCounts(rows: seq<Review>): (r: seq<TopicCount>)
    ensures forall a, b :: 0 <= a < b < |r| ==> r[a].topic < r[b].topic
    ensures forall t :: t in KeyList(r, CountTopic) <==> t in KeyList(rows, TopicOf)
    ensures forall c :: c in r ==> c.count > 0 && c.count == |TopicRows(rows, c.topic)|
    ensures Total(KeyList(r, CountOfTopic)) == |rows|
  {
    var ts := SortedTopics(rows);
    var r := seq(|ts|, i requires 0 <= i < |ts| => TopicCount(ts[i], |TopicRows(rows, ts[i])|));
    TopicCountsFacts(rows, ts, r);
    r
  }

  /** The counts built for the sorted topics of the table keep every promise of `TopicCounts`. */
  lemma TopicCountsFacts(rows: seq<Review>, ts: seq<int>, r: seq<TopicCount>)
    requires forall a, b :: 0 <= a < b < |ts| ==> ts[a] < ts[b]
    requires forall t :: t in ts <==> t in KeyList(rows, TopicOf)
    requires |r| == |ts|
    requires forall i :: 0 <= i < |ts| ==> r[i] == TopicCount(ts[i], |TopicRows(rows, ts[i])|)
    ensures forall a, b :: 0 <= a < b < |r| ==> r[a].topic < r[b].topic
    ensures forall t :: t in KeyList(r, CountTopic) <==> t in KeyList(rows, TopicOf)
    ensures forall c :: c in r ==> c.count > 0 && c.count == |TopicRows(rows, c.topic)|
    ensures Total(KeyList(r, CountOfTopic)) == |rows|
  {
    assert KeyList(r, CountTopic) == ts;
    TopicCountsPositive(rows, ts, r);
    TopicTotal(rows, ts, r);
  }

  /** Only topics that occur get a row, so no count is zero. */
  lemma TopicCountsPositive(rows: seq<Review>, ts: seq<int>, r: seq<TopicCount>)
    requires forall t :: t in ts ==> t in KeyList(rows, TopicOf)
    requires |r| == |ts|
    requires forall i :: 0 <= i < |ts| ==> r[i] == TopicCount(ts[i], |TopicRows(rows, ts[i])|)
    ensures forall c :: c in r ==> c.count > 0 && c.count == |TopicRows(rows, c.topic)|
  {
    forall c | c in r ensures c.count > 0 && c.count == |TopicRows(rows, c.topic)| {
      var k :| 0 <= k < |r| && r[k] == c;
      assert ts[k] in ts;
      var i :| 0 <= i < |rows| && KeyList(rows, TopicOf)[i] == ts[k];
      assert rows[i] in TopicRows(rows, c.topic);
    }
  }

  /** The per-topic counts add up to the number of reviews. */
  lemma TopicTotal(rows: seq<Review>, ts: seq<int>, r: seq<TopicCount>)
    requires forall a, b :: 0 <= a < b < |ts| ==> ts[a] < ts[b]
    requires forall t :: t in KeyList(rows, TopicOf) ==> t in ts
    requires |r| == |ts|
    requires forall i :: 0 <= i < |ts| ==> r[i] == TopicCount(ts[i], |TopicRows(rows, ts[i])|)
    ensures Total(KeyList(r, CountOfTopic)) == |rows|
  {
    var m := multiset(KeyList(rows, TopicOf));
    assert Distinct(ts);
    TallyAsTotal(m, ts, KeyList(r, CountOfTopic));
    TallyBound(KeyList(rows, TopicOf), ts);
  }
}
